=== FILE: README.md ===
# WebSocket file-receiving server: a Dafny model of its decision core

The repository contains two almost identical WebSocket server classes:
`WebsocketCore` (Websocket.cs) and `WebsocketServer` (WebsocketServer.cs).
Each one accepts TCP connections and performs the WebSocket upgrade. During
the upgrade it picks a sub-protocol from the client's list, as in section
4.2.2 of RFC 6455. It then runs a receive loop that speaks a small command
protocol:

- a text message `0;<file name>` (`ReceiveFile`) remembers a target file name
  in the server-wide `DownloadFilename` field;
- a text message `1;…` is acknowledged and does nothing else;
- any other integer code gets the reply `9;undefined command`;
- a binary message is written to `<cwd>\Data\<name>` (or
  `<cwd>\downloads\<name>`) unless that file already exists.

This project models that core once, parameterised by `Protocol.Variant`. The
two classes differ only in four things:

- their reply strings;
- their storage directory;
- their receive-buffer length (`Program.BufferSize` MiB against a fixed
  512 MiB);
- whether an exception from `ReceiveAsync` is caught inside the loop
  (`WebsocketServer`) or escapes it (`WebsocketCore`).

Modules, leaves first:

| module | file | what it holds |
|---|---|---|
| `Wrappers` | wrappers.dfy | `Option`, with `None` standing for a C# `null` |
| `Text` | text.dfy | `String.Split(char)`, `String.Trim()`, `Path.GetFileName`, `Path.GetDirectoryName` |
| `Numbers` | numbers.dfy | bytes, the 32-bit `int` and its wrap-around, `int.Parse` and `ToString` |
| `Protocol` | protocol.dfy | the variant, reply strings, buffer length, the Message Too Big close, storage paths |
| `Negotiation` | negotiation.dfy | `GetSubProtocol` |
| `FileStore` | file_store.dfy | the file system as `map<path, bytes>` plus a set of directories; `SaveBinaryFile` |
| `Disposal` | disposal.dfy | `_isDisposed` and `Dispose()` |
| `ServerState` | server_state.dfy | pending name, file system and lifecycle of one server object |
| `Commands` | commands.dfy | `ProcessTextMessage`, `ProcessCommand` |
| `BinarySink` | binary_sink.dfy | `ProcessBinaryData`, `SendTransactionFinished` |
| `ReceiveLoop` | receive_loop.dfy | one iteration of `RespondToWebSocketRequestAsync`, and the loop as a fold |
| `Connections` | connections.dfy | `ProcessTcpClientAsync`: the disposed guard, handshake, loop and exception handling |
| `Sharing` | sharing.dfy | many connections interleaved over the one shared server state |

Some decisions that shape the model:

- **The pending name is `Option<string>`.** `DownloadFilename` starts as
  `null` (`None`). The guard `DownloadFilename != ""` rejects only the empty
  string, so a binary message that arrives before any `ReceiveFile` command
  targets the path `<cwd>\Data\`. `File.Open` on that directory path throws.
  The model shows this exception escaping the loop with no reply and no file
  written (`ReceiveLoop.BinaryBeforeCommandEscapes`).
- **The name is never cleared after a transfer.** A second binary message
  aims at the same, now existing, file. Its bytes are dropped but the
  completion reply is sent again (`ReceiveLoop.StaleNameKeepsFirstTransfer`).
- **The name is shared by every connection of one server object.** Client A
  announces `x`, then client B announces `y`, then A sends its bytes: they
  are stored under `y` (`Sharing.AnnouncementsInterleave`).
- **The envelope splits on every `;`, not just the first.** The payload is
  field 1 alone, and any later fields are dropped
  (`Commands.PayloadStopsAtSecondSeparator`). A payload of its own can
  therefore never contain `;`.
- **The oversize close reason is sent literally.** Its second half is not an
  interpolated string, so the text `{bufferLen:#,##0}` goes out as written
  (`Protocol.TooBigDescription`).
- **`Program.BufferSize * 1024 * 1024` is C# `int` arithmetic.** It wraps at
  2048 MiB, and the `new byte[n]` allocation then throws before anything is
  received. `Program.BufferSize` is not declared in Program.cs, so the model
  takes it as a parameter of the `WebsocketCore` variant.
- **Everything the core cannot decide is a parameter.** This covers the
  working directory, UTF-8 decoding (`ReceiveLoop.Env.decode`), each receive
  result, the handshake outcome, and whether closing the listener throws.
- **Receive results are abstract values.** A receive is
  `Received(type, Count, buffer)` or the exception it threw. Sent messages
  are values of `Protocol.Outgoing`.

## Model

| member | source | states |
|---|---|---|
| `Negotiation.GetSubProtocol` | Websocket.cs:57-76 | returns the first requested name, in client order, that the supported set contains, or null; it warns exactly when the client asked for names and none matched; it never fails |
| `Negotiation.Negotiate` | WebsocketServer.cs:53-72 | the chosen sub-protocol is none iff no requested name is supported; otherwise it is supported, requested, and no earlier requested name is supported |
| `Negotiation.FirstSupported` | WebsocketServer.cs:55-65 | the position of the first supported requested name: every name before it is unsupported, and the name at it is supported |
| `Negotiation.SupportedSet` | Websocket.cs:49 | a name is supported iff the constructor's list is non-null and contains it |
| `Negotiation.TccsNegotiation` | StartAsync.cs:37 | with the `{"tccs"}` configuration, the first supported name wins wherever it stands; matching is case-sensitive; an empty request or a null list selects nothing |
| `Numbers.Wrap32` | Websocket.cs:143 | unchecked `int` arithmetic: the result is congruent to the exact value modulo 2^32 and equals it when it is in range |
| `Numbers.ParseFormatInt32` | Websocket.cs:198 | `int.Parse` reads back every 32-bit integer that `ToString` writes |
| `Numbers.Decimal` | WebsocketServer.cs:201 | the reference decimal spelling against which the `int.Parse` model is checked: non-empty, digits only, no leading zero, and its digits spell the number |
| `Numbers.ParseInt32` | Websocket.cs:198 | `int.Parse` accepts only strings made of digits, number white space and signs that hold at least one digit; anything else (a `;`, a letter, the empty string) throws |
| `Numbers.ParseOnlyWritten` | WebsocketServer.cs:201 | conversely to `ParseWritten`, whatever `int.Parse` accepts is number white space, an optional `+` or `-`, one or more digits and number white space, and its value is the signed value of those digits (so `"1 2"`, `"+-1"`, `"+ 1"` throw); with `ParseWritten` this is the exact grammar of accepted codes |
| `Numbers.ParseWritten` | WebsocketServer.cs:201 | white space, an optional `+` or `-`, one or more digits and white space parse to the signed value of the digits exactly when it fits in 32 bits, and throw otherwise |
| `Numbers.ParseSignedDigits` | Websocket.cs:198 | once white space is trimmed, an optional sign and digits read as their signed value, or overflow |
| `Text.Split` | Websocket.cs:196 | `msg.Split(';')` gives at least one field, no field contains `;`, joining the fields with `;` gives back the message, and there is one field iff `;` does not occur |
| `Text.SplitJoin` | WebsocketServer.cs:199 | splitting the join of `;`-free fields gives back exactly those fields |
| `Text.TrimBy` | WebsocketServer.cs:252 | trimming yields a slice of the input; everything outside the slice is stripped and neither end of the slice is |
| `Text.Trim` | Websocket.cs:248 | `String.Trim()` is the slice of the input that starts at its first non-white character; everything before and after the slice is white space, and neither end of the slice is |
| `Text.TrimByFramed` | WebsocketServer.cs:201 | trimming a core whose ends are not stripped, framed by stripped characters on both sides, gives back exactly the core |
| `Text.TrimIdempotent` | WebsocketServer.cs:252 | trimming twice is trimming once |
| `Text.GetFileName` | Websocket.cs:248 | `Path.GetFileName`: a separator-free suffix of the path, preceded by a separator unless it is the whole path |
| `Text.DirectoryName` | Websocket.cs:310 | `Path.GetDirectoryName` is strictly shorter than a non-empty path, so a path is never its own parent |
| `Text.DirectoryNameShape` | Websocket.cs:310 | `Path.GetDirectoryName`: a path with a separator is its directory, that separator, and its file name; a path without one has the empty directory |
| `Text.SplitPathOf` | Websocket.cs:269 | a directory, a separator and a separator-free name split back into exactly that directory and that name |
| `Text.GetFileNameOfPlain` | WebsocketServer.cs:275 | a separator-free name is its own file name |
| `Protocol.BufferLength` | WebsocketServer.cs:139 | the receive buffer is 512 MiB in `WebsocketServer`; in `WebsocketCore` it is `BufferSize` MiB, wrapped to 32 bits |
| `Protocol.BufferLengthWraps` | Websocket.cs:143-144 | 2047 MiB fits; 2048 MiB wraps to a negative length; 4096 MiB wraps to an empty buffer |
| `Protocol.TooBigClose` | Websocket.cs:163-169 | the oversize close carries status 1009 (Message Too Big, section 7.4.1 of RFC 6455) and a reason that fits a control frame |
| `Protocol.StoragePathInjective` | Websocket.cs:269 | in one storage directory two names share a path exactly when they concatenate as the same text: distinct names never collide, and only null and `""` coincide |
| `Protocol.StoragePathParts` | WebsocketServer.cs:275 | the storage path of a separator-free name splits back into the storage directory and that name; a null name gives an empty file name |
| `Commands.CommandOf` | Websocket.cs:206-219 | code 0 is `ReceiveFile`, code 1 is the second command, and every other integer is undefined |
| `Commands.ParseClientData` | Websocket.cs:196-203 | a parsed envelope comes from a message containing `;`, and its payload contains no `;` |
| `Commands.EnvelopeDecodes` | WebsocketServer.cs:199-222 | `head;text` with any further `;…` fields parses to the command of `int.Parse(head)` with payload `text`, and to nothing when `head` does not parse |
| `Commands.PayloadStopsAtSecondSeparator` | Websocket.cs:202 | in `0;name;more` the payload is `name` alone |
| `Commands.StoredName` | Websocket.cs:248 | the stored name has no directory separator, no white space at either end, and is no longer than the payload |
| `Commands.StoredNameIdempotent` | WebsocketServer.cs:252 | sanitising a stored name again changes nothing |
| `Commands.EmptyStoredNames` | Websocket.cs:248 | `0;` and `0;dir\` store the empty name |
| `Commands.ProcessCommand` | Websocket.cs:236-256 | `ReceiveFile` stores the sanitised payload and changes nothing else; other commands change nothing; exactly one reply is sent, the variant's own reply to the command (`0;0`, `1;9`, `9;undefined command` in `WebsocketCore`), and it reads back through the envelope as that command |
| `Commands.ReplyReadsBack` | WebsocketServer.cs:239-261 | every reply, in both variants, splits into exactly two fields, the code of the command it answers (0, 1 or 9) and its status, and parses back as that command |
| `Commands.StatusOfShapesReply` | WebsocketServer.cs:244-258 | each reply is its command's one-digit code (0, 1 or 9), `;`, and a status free of `;` |
| `Commands.ProcessTextMessage` | Websocket.cs:189-227 | a malformed envelope sends nothing and changes nothing; a well-formed one is exactly `ProcessCommand` applied to the parsed command and payload, so its one reply and any stored name are that command's; only `ReceiveFile` can change the pending name; no exception escapes |
| `FileStore.SaveBinaryFile` | Websocket.cs:308-324 | the files afterwards are the files before plus, after a success on a missing file, the new file holding exactly the given bytes; at most the parent directory is created, and it exists after a success; faults only when the directory is blocked by a file or the target is a directory, and a fault writes no file |
| `FileStore.SaveKeepsExisting` | WebsocketServer.cs:320-323 | no existing file changes, no file other than the target appears, and after a success the target exists |
| `FileStore.SavePreservesWellFormed` | WebsocketServer.cs:316-329 | saving never leaves a path that is both a file and a directory, nor a file without a name |
| `FileStore.SaveNeverOverwrites` | WebsocketServer.cs:314-330 | a second save to the same path keeps the first save's bytes |
| `BinarySink.ProcessBinaryData` | Websocket.cs:258-273 | the pending name is untouched; the empty name writes and sends nothing; otherwise the bytes go to `<storage>\<name>` unless the file exists, and the completion reply follows unless saving threw; a null name throws with no reply |
| `BinarySink.SinkStores` | WebsocketServer.cs:263-291 | with a clean pending name, the file is stored (unless it already exists), at most the storage directory is created, and `0;File transfer successfully completed` (or `0;0`) is sent |
| `ServerState.Initial` | Websocket.cs:17-23 | a new server has no pending name, is not disposed, and satisfies the state invariant |
| `ReceiveLoop.Step` | Websocket.cs:146-186 | close is checked first and stops silently; then `Count > bufferLen` sends a 1009 close and stops; text goes to the interpreter and binary to the sink; only text changes the pending name; the state invariant is kept |
| `ReceiveLoop.Run` | WebsocketServer.cs:142-189 | the loop consumes receives in order until one stops it, and a caught receive exception arises only in `WebsocketServer` |
| `ReceiveLoop.EscapeFollowsReceive` | WebsocketServer.cs:146-153 | in `WebsocketServer` an exception that escapes the loop never comes from a failed receive |
| `ReceiveLoop.RunAppend` | Websocket.cs:146-186 | running `a` then `b` is running `a + b`; once the loop has stopped, later messages are never read |
| `ReceiveLoop.CloseEndsLoop` | Websocket.cs:155-160 | after the client's close nothing more is read or sent |
| `ReceiveLoop.PendingNeedsText` | WebsocketServer.cs:176-188 | binary messages, closes and failed receives never change the pending name |
| `ReceiveLoop.ReceiveFileCommand` | Websocket.cs:247-249 | `0;<name>` with a clean name sets the pending name to exactly `name` and replies with the `ReceiveFile` acknowledgement |
| `ReceiveLoop.TextStep` | Websocket.cs:173-178 | a text message within the buffer is decoded from exactly its first `Count` bytes and interpreted, what the interpreter sends is sent, and the loop goes on |
| `ReceiveLoop.BinaryStep` | Websocket.cs:261-265 | a binary message hands exactly its first `Count` buffer bytes to the sink |
| `ReceiveLoop.TransferStoresFile` | Websocket.cs:173-185 | `0;<name>` then one binary message creates `<storage>\<name>` with exactly those bytes, sends both acknowledgements and keeps the loop running |
| `ReceiveLoop.StaleNameKeepsFirstTransfer` | WebsocketServer.cs:271-278 | the name is never cleared: a second binary message leaves the first file as it was but is acknowledged again |
| `ReceiveLoop.BinaryBeforeCommandEscapes` | Websocket.cs:266-269 | a binary message while the name is still null ends the loop by an exception, sends nothing and writes no file |
| `ReceiveLoop.FirstUploadEscapes` | Websocket.cs:23 | on a newly constructed server, whose `DownloadFilename` is null, an upload before any `ReceiveFile` command ends the loop by an exception, sends nothing and writes no file |
| `Connections.ProcessConnection` | Websocket.cs:78-138 | a disposed server reads nothing; a header exception goes to the outer `catch` clauses; a non-upgrade request is ignored; an upgrade negotiates first, keeping the chosen sub-protocol even when the accept then throws to the outer `catch`; a negative buffer length is logged as an overflow before anything is read or sent; the outer `catch` never logs `ObjectDisposedException` as an error; the state invariant is kept |
| `Connections.Escape` | WebsocketServer.cs:113-120 | `ObjectDisposedException` is swallowed; every other exception is logged |
| `Connections.Serve` | WebsocketServer.cs:99-120 | an accepted upgrade has exactly the receive loop's state, messages and number of receives; a loop still waiting is `Waiting`, a loop that stopped by itself ends with that same reason, and an exception that escaped the loop goes to the outer `catch` clauses (`ObjectDisposedException` swallowed, anything else logged) |
| `Connections.ServedByLoop` | Websocket.cs:97-107 | an accepted upgrade is exactly `Serve` with the negotiated sub-protocol: the receive loop's state, messages and number of receives, and the outcome derived from how the loop stopped |
| `Connections.NoServiceAfterDispose` | WebsocketServer.cs:79-82 | after `Dispose`, a connection returns at once without reading and changes nothing |
| `Connections.OversizedConfigurationServesNothing` | Websocket.cs:143-144 | with 2048 MiB configured, every upgrade fails at the buffer allocation |
| `Disposal.Dispose` | Websocket.cs:396-422 | only the first call acts: it sets the flag, closes the listener at most once, and logs the shutdown exactly once, last; a close error is logged, not raised, exactly when closing a listening listener fails; later calls do nothing |
| `Disposal.DisposeIdempotent` | WebsocketServer.cs:402-428 | any number of calls equals one call; shutdown is logged once and the listener closed at most once |
| `Disposal.DisposedStaysQuiet` | Websocket.cs:398 | once disposed, further calls change nothing and have no effect |
| `Sharing.WorldStep` | Websocket.cs:23 | one event on the shared server: a connection joins the live set exactly when it is admitted and not already live, and connecting changes neither the server nor the log; only a text receive on a live connection changes the pending name; messages are appended only on the receiving connection; shutdown keeps the files, the pending name, the log and every running loop |
| `Sharing.SoleConnectionIsRun` | WebsocketServer.cs:136-190 | with one active connection, the interleaved world serves it exactly as its own receive loop does |
| `Sharing.AnnouncementsInterleave` | WebsocketServer.cs:22 | A announces `x`, B announces `y`, and A's bytes are stored under `y`; no other file appears, so when `x` differs from `y` it is never created |
| `Sharing.DeadConnectionIgnored` | Websocket.cs:146-186 | receives addressed to a connection whose loop has ended change nothing |
| `Sharing.AdmittedMeansWaiting` | WebsocketServer.cs:79-103 | a connection reaches the receive loop iff the server is not disposed, the request is an upgrade, the accept succeeds and the buffer length is non-negative |
| `Sharing.ShutdownAdmitsNoOne` | Websocket.cs:83-86 | after disposal no new connection is admitted, while running loops continue |

## Left out

- `Listen`, `ProcessTcpClient` and `Task.Run`: the TCP accept loop and its unbounded concurrency. Sharing between connections is modelled only as a sequential interleaving of their receives (`Sharing`).
- The framing library (`ReadHttpHeaderFromStreamAsync`, `AcceptWebSocketAsync`, `ReceiveAsync`, `SendAsync`, `CloseAsync`), keep-alive and cancellation tokens. Their results are abstract parameters. Sends and closes never fail in the model: a `SendAsync` failure inside `ProcessTextMessage` would be swallowed after the state change, and one in the binary path would escape; neither is modelled.
- `GetLocalIPAddress`: a DNS query.
- `CheckDirectory`: deleting and recreating the output directory at start-up.
- log4net logging. The model keeps only which exceptions are logged and which are swallowed, the sub-protocol warning, and the shutdown log of `Dispose`.
- The warning `WebsocketServer` logs when `ReceiveAsync` throws (WebsocketServer.cs:149-152) is not a separate effect. It is represented by the stop reason `ReceiveAbandoned`, which carries the exception; an `ObjectDisposedException` from a receive is warned about there, unlike one that reaches the outer `catch`.
- Screenshot.cs, Program.cs (command-line parsing) and StartAsync.cs, apart from the `{"tccs"}` configuration.
- UTF-8 decoding: a parameter `Env.decode` of the receive loop.
- `Numbers.ParseInt32`: uses the invariant culture's `-` and `+` and does not accept the trailing NUL characters that .NET number parsing tolerates.
- `FileStore.SaveBinaryFile`: `Directory.CreateDirectory` adds only the immediate parent directory, not every missing ancestor. Paths are compared case-sensitively, and `Path.GetDirectoryName` is read as "everything before the last separator", without .NET's path normalisation.
- `FileStore.SaveBinaryFile`: names are not normalised as Windows does. `.` and `..` are stored as ordinary file names instead of denoting the storage directory or its parent, and trailing dots and spaces are kept rather than stripped.
- `Text.GetFileName`: only `\` and `/` are separators. The volume separator `:` (so `C:x` would give `x`) and the `ArgumentException` that .NET Framework throws for invalid path characters are not modelled.
- `FileStore.SaveBinaryFile`: I/O failures other than a blocked directory or a directory-valued target (disk full, permissions) are not modelled. Neither is the race between the existence check and the write.
- `Disposal.Dispose`: whether closing the listener throws is a parameter. A failed close leaves the listener in its previous state.

=== FILE: binary_sink.dfy ===
/** The binary payload sink: `ProcessBinaryData` with its call to
    `SaveBinaryFile` and `SendTransactionFinished`. */
module BinarySink {
  import opened Wrappers
  import opened Numbers
  import opened Protocol
  import opened FileStore
  import opened ServerState
  import Text

  /** `ProcessBinaryData` given the bytes already copied out of the buffer.
      The pending name is never cleared, or otherwise touched.  With the
      empty name nothing is written and nothing sent.  Otherwise the bytes
      go to `<cwd>\Data\<name>` (`<cwd>\downloads\<name>`): no existing file
      changes, and unless saving throws, the completion reply follows.
      With a null name the target path ends in a separator, so saving
      throws and the exception escapes with no reply. */
  function ProcessBinaryData(v: Variant, cwd: string, s: Server, data: seq<byte>): (r: Reaction)
    ensures r.server.pending == s.pending && r.server.lifecycle == s.lifecycle
    ensures s.pending == Some("") ==> r == Reaction(s, [], None)
    ensures r.sent == [] || r.sent == [SendText(TransferFinishedReply(v))]
    ensures r.sent != [] <==> r.fault.None? && s.pending != Some("")
    ensures r.fault.Some? ==> r.server.fs.files == s.fs.files
    ensures r.fault.None? ==>
              r.server.fs.files == if s.pending == Some("") || StoragePath(v, cwd, s.pending) in s.fs.files then s.fs.files
                                   else s.fs.files[StoragePath(v, cwd, s.pending) := data]
    ensures forall p :: p in s.fs.files ==> p in r.server.fs.files && r.server.fs.files[p] == s.fs.files[p]
    ensures r.server.fs.files.Keys <= s.fs.files.Keys + {StoragePath(v, cwd, s.pending)}
    ensures Valid(s) ==> Valid(r.server)
    ensures Valid(s) ==> s.fs.dirs <= r.server.fs.dirs <= s.fs.dirs + {StorageDirectory(v, cwd)}
    ensures Valid(s) && s.pending.Some? && s.pending.value != ""
            && StorageDirectory(v, cwd) !in s.fs.files && StoragePath(v, cwd, s.pending) !in s.fs.dirs ==>
              && r.fault.None?
              && StoragePath(v, cwd, s.pending) in r.server.fs.files
              && (StoragePath(v, cwd, s.pending) !in s.fs.files ==>
                    r.server.fs.files[StoragePath(v, cwd, s.pending)] == data)
    ensures Valid(s) && s.pending.None? ==> r.fault.Some? && r.sent == []
  {
    if s.pending == Some("") then
      Reaction(s, [], None)
    else
      var path := StoragePath(v, cwd, s.pending);
      assert Valid(s) ==> Text.GetFileName(path) == OrEmpty(s.pending)
                          && Text.DirectoryName(path) == StorageDirectory(v, cwd) by {
        if Valid(s) {
          StoragePathParts(v, cwd, s.pending);
        }
      }
      var saved := SaveBinaryFile(s.fs, path, data);
      assert Valid(s) ==> WellFormed(saved.fs) by {
        if Valid(s) {
          SavePreservesWellFormed(s.fs, path, data);
        }
      }
      var after := s.(fs := saved.fs);
      if saved.fault.Some? then
        Reaction(after, [], saved.fault)
      else
        Reaction(after, [SendText(TransferFinishedReply(v))], None)
  }

  /** The intended use: with a clean pending name, the storage directory
      not blocked by a file and the target not a directory, the bytes are
      stored (unless the file exists), at most the storage directory is
      created, and the completion reply is sent. */
  lemma SinkStores(v: Variant, cwd: string, s: Server, data: seq<byte>)
    requires Valid(s) && s.pending.Some? && s.pending.value != ""
    requires StorageDirectory(v, cwd) !in s.fs.files
    requires StoragePath(v, cwd, s.pending) !in s.fs.dirs
    ensures var r := ProcessBinaryData(v, cwd, s, data);
            var path := StoragePath(v, cwd, s.pending);
            && r.fault.None?
            && r.sent == [SendText(TransferFinishedReply(v))]
            && r.server.pending == s.pending
            && r.server.lifecycle == s.lifecycle
            && r.server.fs.files == (if path in s.fs.files then s.fs.files else s.fs.files[path := data])
            && r.server.fs.dirs <= s.fs.dirs + {StorageDirectory(v, cwd)}
            && Valid(r.server)
  {
  }
}

=== FILE: commands.dfy ===
/** The text command envelope `<code>;<payload>` (`ProcessTextMessage`) and
    its interpretation (`ProcessCommand`).  Setting the pending filename is
    the only state change a text message can cause. */
module Commands {
  import opened Wrappers
  import opened Numbers
  import opened Protocol
  import opened ServerState
  import opened Text

  /** The `Command` enum: `ReceiveFile = 0`, the second command
      (`DownloadFromTeamcenter` in Websocket.cs, `SendMessage` in
      WebsocketServer.cs) `= 1`, and `undefined = 9`. */
  datatype Command = ReceiveFile | RemoteOperation | Undefined

  function CodeOf(c: Command): int32 {
    match c
    case ReceiveFile => 0
    case RemoteOperation => 1
    case Undefined => 9
  }

  /** The `switch (msgcom)`: 0 and 1 name commands, every other integer
      (9 included) is undefined. */
  function CommandOf(code: int32): (c: Command)
    ensures c == ReceiveFile <==> code == 0
    ensures c == RemoteOperation <==> code == 1
    ensures c != Undefined ==> CodeOf(c) == code
  {
    if code == 0 then ReceiveFile
    else if code == 1 then RemoteOperation
    else Undefined
  }

  /** `ClientData`: the command and field 1 of the message. */
  datatype ClientData = ClientData(command: Command, text: string)

  /** The parsing half of `ProcessTextMessage`: `msg.Split(';')`, then
      `int.Parse` of field 0 and field 1 as the payload.  `None` stands for
      the exception the `try` swallows: a code `int.Parse` rejects, or no
      field 1 because there is no `;`.  A parsed payload never contains `;`:
      fields after the second are dropped. */
  function ParseClientData(msg: string): (r: Option<ClientData>)
    ensures r.Some? ==> ';' in msg && ';' !in r.value.text
  {
    var fields := Split(msg, ';');
    match ParseInt32(fields[0])
    case None => None
    case Some(code) =>
      if |fields| < 2 then None else Some(ClientData(CommandOf(code), fields[1]))
  }

  /** The envelope read in terms of how a message is put together: for
      `head;text` optionally followed by `;more`, the code is `head` read
      by `int.Parse` and the payload is `text`, whatever follows. */
  lemma EnvelopeDecodes(head: string, text: string, rest: string)
    requires ';' !in head && ';' !in text
    requires rest == [] || rest[0] == ';'
    ensures ParseClientData(head + ";" + text + rest) ==
              match ParseInt32(head)
              case None => None
              case Some(code) => Some(ClientData(CommandOf(code), text))
  {
    var msg := head + ";" + text + rest;
    if rest == [] {
      assert msg == Join([head, text], ';');
      SplitJoin([head, text], ';');
    } else {
      var more := Split(rest[1..], ';');
      var fields := [head, text] + more;
      assert fields[1..] == [text] + more && fields[1..][1..] == more;
      assert rest == [';'] + rest[1..];
      assert msg == Join(fields, ';');
      SplitJoin(fields, ';');
    }
  }

  /** The split is at every `;`, so the payload ends at the second one: in
      `0;name;more` the payload is `name` alone, whatever `more` holds. */
  lemma PayloadStopsAtSecondSeparator(name: string, more: string)
    requires ';' !in name
    ensures ParseClientData(Ack('0', name) + ";" + more) == Some(ClientData(ReceiveFile, name))
  {
    var rest := ";" + more;
    assert rest[0] == ';';
    assert DigitChar(0) == '0';
    DigitEnvelopeDecodes(0, name, rest);
    assert Ack('0', name) + ";" + more == Ack('0', name) + rest;
  }

  /** The name `ReceiveFile` stores: `Path.GetFileName(payload).Trim()`.
      It holds no directory separator and no white space at either end. */
  function StoredName(payload: string): (name: string)
    ensures forall k :: 0 <= k < |name| ==> !IsSeparator(name[k])
    ensures name == [] || (!IsWhiteSpace(name[0]) && !IsWhiteSpace(name[|name| - 1]))
    ensures |name| <= |payload|
  {
    Trim(GetFileName(payload))
  }

  /** Sanitising a stored name again changes nothing. */
  lemma StoredNameIdempotent(payload: string)
    ensures StoredName(StoredName(payload)) == StoredName(payload)
  {
    var plain := GetFileName(payload);
    GetFileNameOfPlain(StoredName(payload));
    TrimIdempotent(plain);
  }

  /** A payload that is empty, or that ends in a separator, stores the empty
      name. */
  lemma EmptyStoredNames(dir: string)
    ensures StoredName("") == ""
    ensures StoredName(dir + "\\") == ""
  {
    assert (dir + "\\")[|dir + "\\"| - 1] == '\\';
  }

  /** The acknowledgement `ProcessCommand` sends for each command. */
  function Reply(v: Variant, c: Command): string {
    match c
    case ReceiveFile => ReceiveFileReply(v)
    case RemoteOperation => RemoteOperationReply(v)
    case Undefined => UndefinedCommandReply
  }

  /** `ProcessCommand`: `ReceiveFile` stores the sanitised payload as the
      pending filename; every command sends exactly one acknowledgement,
      the variant's reply to that command (the literal strings of `Protocol`),
      which read back through the same envelope carries the command's own
      code.  Nothing else changes and nothing escapes. */
  function ProcessCommand(v: Variant, s: Server, cd: ClientData): (r: Reaction)
    ensures r.fault.None? && r.server.fs == s.fs && r.server.lifecycle == s.lifecycle
    ensures cd.command == ReceiveFile ==> r.server.pending == Some(StoredName(cd.text))
    ensures cd.command != ReceiveFile ==> r.server == s
    ensures r.sent == [SendText(Reply(v, cd.command))]
    ensures ParseClientData(r.sent[0].message) == Some(ClientData(cd.command, StatusOf(v, cd.command)))
  {
    ReplyReadsBack(v, cd.command);
    match cd.command
    case Undefined =>
      Reaction(s, [SendText(UndefinedCommandReply)], None)
    case ReceiveFile =>
      Reaction(s.(pending := Some(StoredName(cd.text))), [SendText(ReceiveFileReply(v))], None)
    case RemoteOperation =>
      Reaction(s, [SendText(RemoteOperationReply(v))], None)
  }

  /** Every acknowledgement has the shape `<code>;<status>`: split at `;` it
      is exactly the decimal code of the command it answers (0, 1 or 9) and
      the status, and read back through the envelope it is that command
      with that status. */
  lemma ReplyReadsBack(v: Variant, c: Command)
    ensures Split(Reply(v, c), ';') == [FormatInt32(CodeOf(c)), StatusOf(v, c)]
    ensures ParseClientData(Reply(v, c)) == Some(ClientData(c, StatusOf(v, c)))
  {
    var code := CodeOf(c);
    var status := StatusOf(v, c);
    var head := [DigitChar(code as nat)];
    StatusOfShapesReply(v, c);
    assert FormatInt32(code) == head;
    assert Reply(v, c) == Join([head, status], ';');
    SplitJoin([head, status], ';');
    DigitEnvelopeDecodes(code, status, "");
    assert Ack(DigitChar(code as nat), status) + "" == Reply(v, c);
  }

  /** The status half of each acknowledgement: everything after `<code>;`. */
  function StatusOf(v: Variant, c: Command): string {
    var reply := Reply(v, c);
    if |reply| < 2 then "" else reply[2..]
  }

  /** Each reply is its command's one-digit code, `;`, and a `;`-free status. */
  lemma StatusOfShapesReply(v: Variant, c: Command)
    ensures 0 <= CodeOf(c) < 10
    ensures ';' !in StatusOf(v, c)
    ensures Reply(v, c) == Ack(DigitChar(CodeOf(c) as nat), StatusOf(v, c))
  {
    var d := DigitChar(CodeOf(c) as nat);
    assert d == if c.ReceiveFile? then '0' else if c.RemoteOperation? then '1' else '9';
    RepliesAreAcks(v);
    AckShaped(Reply(v, c), d);
  }

  /** Every reply text starts with its code and `;` and holds no further `;`. */
  lemma RepliesAreAcks(v: Variant)
    ensures AckForm(Reply(v, Undefined), '9')
    ensures AckForm(Reply(v, ReceiveFile), '0')
    ensures AckForm(Reply(v, RemoteOperation), '1')
  {
    assert AckForm(UndefinedCommandReply, '9');
    if v.WebsocketCore? {
      assert AckForm("0;0", '0');
      assert AckForm("1;9", '1');
    } else {
      LongRepliesAreAcks();
    }
  }

  lemma LongRepliesAreAcks()
    ensures AckForm("0;received binary data command", '0')
    ensures AckForm("1;received send message command", '1')
  {
  }

  /** `reply` starts with `d;` and has no further `;`. */
  predicate AckForm(reply: string, d: char)
  {
    |reply| >= 2 && reply[0] == d && reply[1] == ';'
    && forall k :: 2 <= k < |reply| ==> reply[k] != ';'
  }

  /** A string that starts with `d;` and has no further `;` is the
      acknowledgement with code `d` and the rest as its status. */
  lemma AckShaped(reply: string, d: char)
    requires AckForm(reply, d)
    ensures ';' !in reply[2..]
    ensures reply == Ack(d, reply[2..])
  {
    var status := reply[2..];
    assert forall k :: 0 <= k < |status| ==> status[k] == reply[k + 2];
    assert reply == [reply[0]] + ";" + status;
  }

  /** A one-digit code, `;`, a `;`-free status and any further fields
      read back as that code and status. */
  lemma DigitEnvelopeDecodes(code: int32, text: string, rest: string)
    requires 0 <= code < 10 && ';' !in text
    requires rest == [] || rest[0] == ';'
    ensures ParseClientData(Ack(DigitChar(code as nat), text) + rest)
            == Some(ClientData(CommandOf(code), text))
  {
    var head := [DigitChar(code as nat)];
    ParseFormatInt32(code);
    assert FormatInt32(code) == head;
    EnvelopeDecodes(head, text, rest);
    assert Ack(DigitChar(code as nat), text) + rest == head + ";" + text + rest;
  }

  /** `ProcessTextMessage`: a message the envelope rejects is dropped with
      no reply and no state change; any other is handed to
      `ProcessCommand`.  Exceptions never escape. */
  function ProcessTextMessage(v: Variant, s: Server, msg: string): (r: Reaction)
    ensures r.fault.None? && r.server.fs == s.fs && r.server.lifecycle == s.lifecycle
    ensures ParseClientData(msg).None? ==> r.server == s && r.sent == []
    ensures ParseClientData(msg).Some? ==> |r.sent| == 1
    ensures ParseClientData(msg).Some? ==> r == ProcessCommand(v, s, ParseClientData(msg).value)
    ensures r.server.pending != s.pending ==>
              ParseClientData(msg).Some? && ParseClientData(msg).value.command == ReceiveFile
  {
    match ParseClientData(msg)
    case None => Reaction(s, [], None)
    case Some(cd) => ProcessCommand(v, s, cd)
  }
}

=== FILE: connections.dfy ===
/** One TCP connection as `ProcessTcpClientAsync` handles it: the
    `_isDisposed` early return, the upgrade handshake with sub-protocol
    selection, the buffer allocation, the receive loop, and what becomes of
    an exception that escapes. */
module Connections {
  import opened Wrappers
  import opened Numbers
  import opened Protocol
  import opened ServerState
  import opened Disposal
  import opened Negotiation
  import opened ReceiveLoop

  /** What reading the HTTP header gave: an exception (from `GetStream` or
      `ReadHttpHeaderFromStreamAsync`), a request that is not a WebSocket
      upgrade, or an upgrade with the client's requested sub-protocols and
      the exception `AcceptWebSocketAsync` threw, if any. */
  datatype Handshake =
    | HeaderFailed(fault: Fault)
    | PlainRequest
    | UpgradeRequest(requested: seq<string>, acceptFault: Option<Fault>)

  /** How the connection task ends. */
  datatype Outcome =
    | NotServed          // the server was disposed: nothing is read
    | Ignored            // not an upgrade request
    | Waiting            // the receive loop is waiting for more messages
    | Ended(reason: StopReason)  // the loop ended without an exception escaping
    | Swallowed          // `ObjectDisposedException` escaped and was dropped
    | Logged(fault: Fault)       // any other exception escaped and was logged

  /** The connection's effect on the shared server, the negotiated
      sub-protocol, the messages sent, how many receives were handled, and
      the outcome. */
  datatype Connection = Connection(server: Server, subProtocol: Option<string>, sent: seq<Outgoing>,
                                   consumed: nat, outcome: Outcome)

  /** The two `catch` clauses: `ObjectDisposedException` is dropped, every
      other exception is logged. */
  function Escape(f: Fault): (o: Outcome)
    ensures o == Swallowed <==> f == ObjectDisposed
    ensures o != Swallowed ==> o == Logged(f)
  {
    if f == ObjectDisposed then Swallowed else Logged(f)
  }

  /** `ProcessTcpClientAsync` given the handshake and the receives that
      follow it.  A disposed server reads nothing; a request that is not an
      upgrade never reaches the receive loop; an upgrade negotiates the
      sub-protocol first; a negative buffer length makes the allocation
      throw before anything is received.  The outer `catch` clauses never
      log `ObjectDisposedException` as an error, and in WebsocketServer a
      failed receive never escapes: the loop catches it, warns, and ends
      (`ReceiveAbandoned`). */
  function ProcessConnection(v: Variant, env: Env, supported: set<string>, s: Server,
                             hs: Handshake, events: seq<ReceiveEvent>): (c: Connection)
    ensures s.lifecycle.disposed ==> c == Connection(s, None, [], 0, NotServed)
    ensures !hs.UpgradeRequest? ==> c.server == s && c.sent == [] && c.consumed == 0
    ensures !s.lifecycle.disposed && hs.UpgradeRequest? ==> c.subProtocol == Negotiate(hs.requested, supported)
    ensures c.consumed <= |events|
    ensures c.consumed > 0 ==> !s.lifecycle.disposed && hs.UpgradeRequest? && hs.acceptFault.None? && BufferLength(v) >= 0
    ensures c.outcome == Waiting ==> c.consumed == |events|
    ensures c.outcome != Logged(ObjectDisposed)
    ensures c.outcome.Ended? ==> !c.outcome.reason.Escaped?
    ensures !s.lifecycle.disposed && hs.HeaderFailed? ==> c == Connection(s, None, [], 0, Escape(hs.fault))
    ensures !s.lifecycle.disposed && hs.PlainRequest? ==> c == Connection(s, None, [], 0, Ignored)
    ensures !s.lifecycle.disposed && hs.UpgradeRequest? && hs.acceptFault.Some? ==>
              c == Connection(s, Negotiate(hs.requested, supported), [], 0, Escape(hs.acceptFault.value))
    ensures !s.lifecycle.disposed && hs.UpgradeRequest? && hs.acceptFault.None? && BufferLength(v) < 0 ==>
              c.outcome == Logged(Overflow) && c.consumed == 0 && c.server == s && c.sent == []
    ensures v.WebsocketServer? && c.consumed > 0 && (c.outcome.Swallowed? || c.outcome.Logged?) ==>
              events[c.consumed - 1].Received?
    ensures c.server.lifecycle == s.lifecycle
    ensures Valid(s) ==> Valid(c.server)
  {
    if s.lifecycle.disposed then
      Connection(s, None, [], 0, NotServed)
    else
      match hs
      case HeaderFailed(f) => Connection(s, None, [], 0, Escape(f))
      case PlainRequest => Connection(s, None, [], 0, Ignored)
      case UpgradeRequest(requested, acceptFault) =>
        var chosen := Negotiate(requested, supported);
        if acceptFault.Some? then
          Connection(s, chosen, [], 0, Escape(acceptFault.value))
        else if BufferLength(v) < 0 then
          Connection(s, chosen, [], 0, Logged(Overflow))
        else
          Serve(v, env, s, chosen, events)
  }

  /** The accepted-upgrade branch: the receive loop runs, and how it stopped
      becomes the outcome.  A loop still waiting stays `Waiting`; a loop that
      stopped by itself ends with that reason; an exception that escaped the
      loop goes to the outer `catch` clauses. */
  function Serve(v: Variant, env: Env, s: Server, chosen: Option<string>, events: seq<ReceiveEvent>): (c: Connection)
    ensures c.subProtocol == chosen
    ensures c.consumed <= |events|
    ensures c.outcome == Waiting ==> c.consumed == |events|
    ensures c.outcome != Logged(ObjectDisposed) && !c.outcome.NotServed? && !c.outcome.Ignored?
    ensures c.outcome.Ended? ==> !c.outcome.reason.Escaped?
    ensures v.WebsocketServer? && c.consumed > 0 && (c.outcome.Swallowed? || c.outcome.Logged?) ==>
              events[c.consumed - 1].Received?
    ensures c.server.lifecycle == s.lifecycle
    ensures Valid(s) ==> Valid(c.server)
    ensures var r := Run(v, env, s, events);
            && c.server == r.server && c.sent == r.sent && c.consumed == r.consumed
            && (r.stop.None? <==> c.outcome == Waiting)
            && (r.stop.Some? && !r.stop.value.Escaped? ==> c.outcome == Ended(r.stop.value))
            && (r.stop.Some? && r.stop.value.Escaped? ==> c.outcome == Escape(r.stop.value.fault))
  {
    var r := Run(v, env, s, events);
    EscapeFollowsReceive(v, env, s, events);
    Connection(r.server, chosen, r.sent, r.consumed, OutcomeOf(r.stop))
  }

  /** How the loop's stop becomes the connection's outcome. */
  function OutcomeOf(stop: Option<StopReason>): (o: Outcome)
    ensures stop.None? <==> o == Waiting
    ensures stop.Some? && !stop.value.Escaped? ==> o == Ended(stop.value)
    ensures stop.Some? && stop.value.Escaped? ==> o == Escape(stop.value.fault)
  {
    match stop
    case None => Waiting
    case Some(Escaped(f)) => Escape(f)
    case Some(reason) => Ended(reason)
  }

  /** An accepted upgrade is served by exactly the receive loop: the same
      state, the same messages, the same number of receives, and the
      outcome `Serve` derives from how the loop stopped. */
  lemma ServedByLoop(v: Variant, env: Env, supported: set<string>, s: Server,
                     requested: seq<string>, events: seq<ReceiveEvent>)
    requires !s.lifecycle.disposed && BufferLength(v) >= 0
    ensures var c := ProcessConnection(v, env, supported, s, UpgradeRequest(requested, None), events);
            var r := Run(v, env, s, events);
            && c == Serve(v, env, s, Negotiate(requested, supported), events)
            && c.server == r.server && c.sent == r.sent && c.consumed == r.consumed
            && (r.stop.None? <==> c.outcome == Waiting)
  {
    var c := ProcessConnection(v, env, supported, s, UpgradeRequest(requested, None), events);
    assert c == Serve(v, env, s, Negotiate(requested, supported), events);
  }

  /** Once `Dispose` has run, whatever the listener did, a connection
      handled afterwards is not served and leaves the server as it was. */
  lemma NoServiceAfterDispose(v: Variant, env: Env, supported: set<string>, s: Server, closeFails: bool,
                              hs: Handshake, events: seq<ReceiveEvent>)
    ensures var after := s.(lifecycle := Dispose(s.lifecycle, closeFails).after);
            ProcessConnection(v, env, supported, after, hs, events) == Connection(after, None, [], 0, NotServed)
  {
  }

  /** A configured buffer size of 2048 MiB or more (below 4096) wraps to a
      negative length: every upgrade then fails at the allocation, before
      any message is read. */
  lemma OversizedConfigurationServesNothing(env: Env, supported: set<string>, s: Server,
                                            requested: seq<string>, events: seq<ReceiveEvent>)
    requires !s.lifecycle.disposed
    ensures ProcessConnection(WebsocketCore(2048), env, supported, s, UpgradeRequest(requested, None), events).outcome
            == Logged(Overflow)
  {
    BufferLengthWraps();
  }
}

=== FILE: disposal.dfy ===
/** The listener's lifecycle: the `_isDisposed` flag and `Dispose()`. */
module Disposal {

  /** `_listener`: not yet created by `Listen` (null), listening, or closed. */
  datatype Listener = NoListener | Listening | Closed

  datatype Lifecycle = Lifecycle(disposed: bool, listener: Listener)

  /** Observable effects of `Dispose`. */
  datatype Effect = ListenerClosed | CloseErrorLogged | ShutdownLogged

  datatype Disposed = Disposed(after: Lifecycle, effects: seq<Effect>)

  /** A fresh server: `_isDisposed = false`. */
  function Fresh(listener: Listener): Lifecycle {
    Lifecycle(false, listener)
  }

  /** The guard at the top of `ProcessTcpClientAsync`: a connection is served
      only while the server is not disposed. */
  predicate AcceptsConnections(lc: Lifecycle) {
    !lc.disposed
  }

  /** `Dispose()`.  Only the first call acts: it sets `_isDisposed`, closes
      the listener if there is one (an exception while closing is logged,
      not raised, and the model then leaves the listener as it was) and
      logs the shutdown exactly once, as its last effect.  Later calls
      change nothing and have no effect. */
  function Dispose(lc: Lifecycle, closeFails: bool): (r: Disposed)
    ensures r.after.disposed && !AcceptsConnections(r.after)
    ensures lc.disposed ==> r.after == lc && r.effects == []
    ensures !lc.disposed ==> multiset(r.effects)[ShutdownLogged] == 1
                             && r.effects[|r.effects| - 1] == ShutdownLogged
    ensures ListenerClosed in r.effects <==> !lc.disposed && lc.listener == Listening && !closeFails
    ensures CloseErrorLogged in r.effects <==> !lc.disposed && lc.listener == Listening && closeFails
    ensures multiset(r.effects)[ListenerClosed] <= 1
    ensures r.after.listener == (if ListenerClosed in r.effects then Closed else lc.listener)
  {
    if lc.disposed then
      Disposed(lc, [])
    else if lc.listener != Listening then
      Disposed(Lifecycle(true, lc.listener), [ShutdownLogged])
    else if closeFails then
      Disposed(Lifecycle(true, lc.listener), [CloseErrorLogged, ShutdownLogged])
    else
      Disposed(Lifecycle(true, Closed), [ListenerClosed, ShutdownLogged])
  }

  /** `Dispose()` called once per entry of `attempts`, the entry telling
      whether closing the listener would throw on that call. */
  function DisposeAll(lc: Lifecycle, attempts: seq<bool>): Disposed
    decreases |attempts|
  {
    if |attempts| == 0 then
      Disposed(lc, [])
    else
      var first := Dispose(lc, attempts[0]);
      var rest := DisposeAll(first.after, attempts[1..]);
      Disposed(rest.after, first.effects + rest.effects)
  }

  /** Once disposed, any number of further calls is a no-op. */
  lemma {:induction false} DisposedStaysQuiet(lc: Lifecycle, attempts: seq<bool>)
    requires lc.disposed
    ensures DisposeAll(lc, attempts) == Disposed(lc, [])
    decreases |attempts|
  {
    if |attempts| > 0 {
      DisposedStaysQuiet(lc, attempts[1..]);
    }
  }

  /** Idempotence: however many times `Dispose` is called, the shutdown is
      logged and the listener closed at most once, and only by the first
      call; the state afterwards is the state after one call. */
  lemma {:induction false} DisposeIdempotent(lc: Lifecycle, attempts: seq<bool>)
    requires |attempts| >= 1
    ensures DisposeAll(lc, attempts) == Dispose(lc, attempts[0])
    ensures multiset(DisposeAll(lc, attempts).effects)[ShutdownLogged] == (if lc.disposed then 0 else 1)
    ensures multiset(DisposeAll(lc, attempts).effects)[ListenerClosed] <= 1
  {
    var first := Dispose(lc, attempts[0]);
    DisposedStaysQuiet(first.after, attempts[1..]);
    assert first.effects + [] == first.effects;
  }
}

=== FILE: file_store.dfy ===
/** The slice of the file system the servers touch, and `SaveBinaryFile`,
    which never overwrites. */
module FileStore {
  import opened Wrappers
  import opened Numbers
  import opened Protocol
  import Text

  /** Files by full path, and the set of existing directories. */
  datatype FileSystem = FileSystem(files: map<string, seq<byte>>, dirs: set<string>)

  /** No path is both a file and a directory, and every file has a name
      (a path ending in a separator denotes a directory, never a file). */
  ghost predicate WellFormed(fs: FileSystem) {
    forall p :: p in fs.files ==> p !in fs.dirs && Text.GetFileName(p) != ""
  }

  /** The file system after the call, and the exception it raised, if any.
      Effects made before the exception (a created directory) persist. */
  datatype SaveResult = SaveResult(fs: FileSystem, fault: Option<Fault>)

  /** `SaveBinaryFile(FullFileName, binary)`: create the parent directory if
      it is missing, return silently if the file already exists, otherwise
      create the file holding exactly `data`.
      The files afterwards are the files before plus, when saving succeeded
      and the file was missing, `fullName` holding exactly `data`; at most
      the parent directory is added, and it exists after a success.  It
      fails when the parent directory is blocked by a file, or when
      `fullName` is a directory or ends in a separator; a failure changes no
      file. */
  function SaveBinaryFile(fs: FileSystem, fullName: string, data: seq<byte>): (r: SaveResult)
    ensures r.fs.files == if r.fault.None? && fullName !in fs.files then fs.files[fullName := data] else fs.files
    ensures fs.dirs <= r.fs.dirs <= fs.dirs + {Text.DirectoryName(fullName)}
    ensures r.fault.None? ==> Text.DirectoryName(fullName) in r.fs.dirs
    ensures r.fault == Some(DirectoryBlocked) <==>
              Text.DirectoryName(fullName) !in fs.dirs && Text.DirectoryName(fullName) in fs.files
    ensures r.fault == Some(AccessDenied) <==>
              && !(Text.DirectoryName(fullName) !in fs.dirs && Text.DirectoryName(fullName) in fs.files)
              && fullName !in fs.files
              && (Text.GetFileName(fullName) == "" || fullName in fs.dirs)
    ensures r.fault.None? || r.fault == Some(DirectoryBlocked) || r.fault == Some(AccessDenied)
  {
    var dir := Text.DirectoryName(fullName);
    if dir !in fs.dirs && dir in fs.files then
      SaveResult(fs, Some(DirectoryBlocked))
    else
      var created := fs.(dirs := fs.dirs + {dir});
      if fullName in created.files then
        SaveResult(created, None)
      else if Text.GetFileName(fullName) == "" || fullName in created.dirs then
        SaveResult(created, Some(AccessDenied))
      else
        SaveResult(created.(files := created.files[fullName := data]), None)
  }

  /** Saving keeps the file system well formed: the only file it can add
      has a name and is not a directory, and the only directory it can add
      is the parent, which is not a file unless saving refused. */
  lemma SavePreservesWellFormed(fs: FileSystem, fullName: string, data: seq<byte>)
    requires WellFormed(fs)
    ensures WellFormed(SaveBinaryFile(fs, fullName, data).fs)
  {
  }

  /** Existing files never change, no file other than `fullName` appears,
      and after a success the file exists. */
  lemma SaveKeepsExisting(fs: FileSystem, fullName: string, data: seq<byte>)
    ensures var r := SaveBinaryFile(fs, fullName, data);
            && (forall p :: p in fs.files ==> p in r.fs.files && r.fs.files[p] == fs.files[p])
            && r.fs.files.Keys <= fs.files.Keys + {fullName}
            && (r.fault.None? ==> fullName in r.fs.files)
  {
  }

  /** A second save to the same path, whatever its bytes, leaves the first
      save's contents in place. */
  lemma SaveNeverOverwrites(fs: FileSystem, fullName: string, first: seq<byte>, second: seq<byte>)
    requires SaveBinaryFile(fs, fullName, first).fault.None?
    requires fullName !in fs.files
    ensures var once := SaveBinaryFile(fs, fullName, first).fs;
            SaveBinaryFile(once, fullName, second).fs.files[fullName] == first
  {
  }
}

=== FILE: negotiation.dfy ===
/** Sub-protocol selection during the upgrade handshake (`GetSubProtocol`):
    the server picks from the client's `Sec-WebSocket-Protocol` list, as in
    section 4.2.2 of RFC 6455. */
module Negotiation {
  import opened Wrappers

  /** `new HashSet<string>(supportedSubProtocols ?? new string[0])`: the
      constructor's optional list as a set, empty when the list is null. */
  function SupportedSet(configured: Option<seq<string>>): (supported: set<string>)
    ensures forall name :: name in supported <==> configured.Some? && name in configured.value
  {
    match configured
    case None => {}
    case Some(names) => set name | name in names
  }

  /** The one name `StartAsync` configures. */
  const StartAsyncProtocols: Option<seq<string>> := Some(["tccs"])

  /** The position of the first requested name the server supports, or
      `|requested|` when there is none. */
  function FirstSupported(requested: seq<string>, supported: set<string>): (i: nat)
    ensures i <= |requested|
    ensures forall j :: 0 <= j < i ==> requested[j] !in supported
    ensures i < |requested| ==> requested[i] in supported
    decreases |requested|
  {
    if |requested| == 0 then 0
    else if requested[0] in supported then 0
    else 1 + FirstSupported(requested[1..], supported)
  }

  /** The negotiated sub-protocol: the first name, in the client's order,
      that the server supports; none when nothing matches (including an
      empty request).  Negotiation itself never fails. */
  function Negotiate(requested: seq<string>, supported: set<string>): (chosen: Option<string>)
    ensures chosen.None? <==> forall j :: 0 <= j < |requested| ==> requested[j] !in supported
    ensures chosen.Some? ==> chosen.value in supported
    ensures chosen.Some? ==> exists i :: 0 <= i < |requested| && requested[i] == chosen.value
                                         && forall j :: 0 <= j < i ==> requested[j] !in supported
  {
    var i := FirstSupported(requested, supported);
    if i < |requested| then Some(requested[i]) else None
  }

  /** `GetSubProtocol`: the `foreach` over the requested names returning the
      first supported one, or null, with a warning logged when the client
      asked for names and none matched. */
  method GetSubProtocol(requested: seq<string>, supported: set<string>)
    returns (chosen: Option<string>, warned: bool)
    ensures chosen == Negotiate(requested, supported)
    ensures warned <==> chosen.None? && |requested| > 0
  {
    var k := 0;
    while k < |requested|
      invariant 0 <= k <= |requested|
      invariant forall j :: 0 <= j < k ==> requested[j] !in supported
    {
      if requested[k] in supported {
        return Some(requested[k]), false;
      }
      k := k + 1;
    }
    return None, |requested| > 0;
  }

  /** With the `{"tccs"}` configuration of `StartAsync`: the first supported
      name wins wherever it stands, the match is case-sensitive, and an
      empty or unmatched request yields no sub-protocol. */
  lemma TccsNegotiation()
    ensures Negotiate(["chat", "tccs", "tccs"], SupportedSet(StartAsyncProtocols)) == Some("tccs")
    ensures Negotiate(["TCCS"], SupportedSet(StartAsyncProtocols)) == None
    ensures Negotiate([], SupportedSet(StartAsyncProtocols)) == None
    ensures Negotiate(["tccs"], SupportedSet(None)) == None
  {
    var supported := SupportedSet(StartAsyncProtocols);
    assert "chat" !in supported;
    assert "TCCS" != "tccs";
  }
}

=== FILE: numbers.dfy ===
/** Machine integers as the servers use them: the 32-bit `int` of C# with
    its two's-complement wrap-around, bytes, and `int.Parse` restricted to
    the invariant culture. */
module Numbers {
  import opened Wrappers
  import Text

  newtype byte = b: int | 0 <= b < 256

  const MinInt32: int := -0x8000_0000
  const MaxInt32: int := 0x7FFF_FFFF

  type int32 = x: int | MinInt32 <= x <= MaxInt32

  /** Unchecked C# arithmetic: the value `x` takes once truncated to 32 bits
      and read back as a signed number. */
  function Wrap32(x: int): (r: int32)
    ensures (r - x) % 0x1_0000_0000 == 0
    ensures MinInt32 <= x <= MaxInt32 ==> r == x
  {
    (x - MinInt32) % 0x1_0000_0000 + MinInt32
  }

  // ---------------------------------------------------------------------
  // Decimal digits

  predicate IsDigit(c: char) {
    '0' <= c <= '9'
  }

  predicate AllDigits(s: string) {
    forall k :: 0 <= k < |s| ==> IsDigit(s[k])
  }

  function DigitChar(d: nat): (c: char)
    requires d < 10
    ensures IsDigit(c)
  {
    ('0' as int + d) as char
  }

  /** The number a run of ASCII digits spells, most significant first. */
  function DigitsValue(s: string): nat
    requires AllDigits(s)
  {
    if |s| == 0 then 0
    else DigitsValue(s[..|s| - 1]) * 10 + ((s[|s| - 1] as int) - ('0' as int))
  }

  /** The shortest decimal spelling of `n`: non-empty, digits only, no
      leading zero except for 0 itself, and it spells `n`. */
  function Decimal(n: nat): (s: string)
    ensures |s| >= 1 && AllDigits(s)
    ensures s[0] != '0' || n == 0
    ensures DigitsValue(s) == n
  {
    if n < 10 then
      [DigitChar(n)]
    else
      var s := Decimal(n / 10) + [DigitChar(n % 10)];
      assert s[..|s| - 1] == Decimal(n / 10);
      s
  }

  /** `Int32.ToString()` in the invariant culture. */
  function FormatInt32(n: int32): string
  {
    var m: int := n;
    if m < 0 then "-" + Decimal(-m) else Decimal(m)
  }

  // ---------------------------------------------------------------------
  // int.Parse

  /** The white space `NumberStyles.Integer` tolerates around a number:
      U+0009..U+000D and U+0020 (narrower than `Char.IsWhiteSpace`). */
  predicate IsNumberWhite(c: char) {
    ('\t' <= c <= '\r') || c == ' '
  }

  /** `int.Parse(s)` with `NumberStyles.Integer` in the invariant culture:
      optional surrounding white space, an optional `+` or `-`, at least one
      ASCII digit, and a value inside the 32-bit range.  `None` stands for
      the `FormatException` or `OverflowException` the call throws.  What it
      accepts holds nothing but digits, number white space and signs, and at
      least one digit. */
  function ParseInt32(s: string): (r: Option<int32>)
    ensures r.Some? ==> NumberChars(s)
  {
    var body := Text.TrimBy(s, IsNumberWhite);
    var r := ParseSigned(body);
    assert r.Some? ==> NumberChars(s) by {
      if r.Some? { FramedNumberChars(s, Text.SkipForward(s, IsNumberWhite, 0), body); }
    }
    r
  }

  /** `s` holds only digits, number white space and signs, and some digit. */
  predicate NumberChars(s: string) {
    && (forall k :: 0 <= k < |s| ==> IsDigit(s[k]) || IsNumberWhite(s[k]) || s[k] == '+' || s[k] == '-')
    && exists k :: 0 <= k < |s| && IsDigit(s[k])
  }

  /** A signed number framed by number white space. */
  lemma FramedNumberChars(s: string, i: nat, body: string)
    requires i + |body| <= |s| && body == s[i..i + |body|]
    requires forall k :: 0 <= k < i ==> IsNumberWhite(s[k])
    requires forall k :: i + |body| <= k < |s| ==> IsNumberWhite(s[k])
    requires |body| >= 1 && IsDigit(body[|body| - 1])
    requires forall k :: 0 <= k < |body| ==> IsDigit(body[k]) || body[k] == '+' || body[k] == '-'
    ensures NumberChars(s)
  {
    assert forall k :: i <= k < i + |body| ==> s[k] == body[k - i];
    assert IsDigit(s[i + |body| - 1]);
  }

  /** The number itself once the white space is gone: an optional sign, then
      digits only, then the range check. */
  function ParseSigned(body: string): (r: Option<int32>)
    ensures r.Some? ==> |body| >= 1 && IsDigit(body[|body| - 1])
    ensures r.Some? ==> forall k :: 0 <= k < |body| ==> IsDigit(body[k]) || body[k] == '+' || body[k] == '-'
  {
    var sign := SignPrefix(body);
    var digits := body[|sign|..];
    if |digits| == 0 || !AllDigits(digits) then None
    else
      var value := SignedValue(sign, digits);
      if MinInt32 <= value <= MaxInt32 then Some(value) else None
  }

  /** The value an optional sign followed by digits stands for. */
  function SignedValue(sign: string, digits: string): int
    requires AllDigits(digits)
  {
    if sign == "-" then -(DigitsValue(digits) as int) else DigitsValue(digits)
  }

  /** An optional sign and at least one digit read as their signed value
      exactly when it fits in 32 bits. */
  lemma ParseSignedDigits(sign: string, digits: string)
    requires sign == "" || sign == "+" || sign == "-"
    requires |digits| >= 1 && AllDigits(digits)
    ensures var value := SignedValue(sign, digits);
            ParseSigned(sign + digits) == if MinInt32 <= value <= MaxInt32 then Some(value) else None
  {
    var body := sign + digits;
    assert body[..|sign|] == sign;
    assert SignPrefix(body) == sign by {
      if sign == "" { assert body[0] == digits[0]; }
    }
    assert body[|sign|..] == digits;
  }

  /** `int.Parse` read against how a number is written: number white space,
      then an optional sign, then at least one digit, then number white
      space, parses to the value of the signed digits exactly when that value
      fits in 32 bits. */
  lemma ParseWritten(pre: string, sign: string, digits: string, post: string)
    requires forall k :: 0 <= k < |pre| ==> IsNumberWhite(pre[k])
    requires forall k :: 0 <= k < |post| ==> IsNumberWhite(post[k])
    requires sign == "" || sign == "+" || sign == "-"
    requires |digits| >= 1 && AllDigits(digits)
    ensures var value := SignedValue(sign, digits);
            ParseInt32(pre + sign + digits + post) ==
              if MinInt32 <= value <= MaxInt32 then Some(value) else None
  {
    var core := sign + digits;
    assert core[|core| - 1] == digits[|digits| - 1];
    assert !IsNumberWhite(core[0]) && !IsNumberWhite(core[|core| - 1]);
    assert pre + sign + digits + post == pre + core + post;
    Text.TrimByFramed(pre, core, post, IsNumberWhite);
    ParseSignedDigits(sign, digits);
  }

  /** `s` is written as number white space, an optional sign, at least one
      digit, and number white space. */
  predicate WrittenNumber(s: string, pre: string, sign: string, digits: string, post: string) {
    && s == pre + sign + digits + post
    && (forall k :: 0 <= k < |pre| ==> IsNumberWhite(pre[k]))
    && (forall k :: 0 <= k < |post| ==> IsNumberWhite(post[k]))
    && (sign == "" || sign == "+" || sign == "-")
    && |digits| >= 1 && AllDigits(digits)
  }

  /** The converse of `ParseWritten`: whatever `int.Parse` accepts is
      written as white space, an optional sign, digits and white space, and
      its value is that of the signed digits.  So `"1 2"`, `"+-1"` or
      `"+ 1"` are rejected. */
  lemma ParseOnlyWritten(s: string)
    ensures ParseInt32(s).Some? ==>
              exists pre, sign, digits, post ::
                WrittenNumber(s, pre, sign, digits, post) && ParseInt32(s).value == SignedValue(sign, digits)
  {
    var body := Text.TrimBy(s, IsNumberWhite);
    assert ParseInt32(s) == ParseSigned(body);
    if ParseSigned(body).Some? {
      var sign := SignPrefix(body);
      var digits := body[|sign|..];
      SignedBody(body);
      var pre, post := TrimmedFrame(s);
      FramedWritten(s, pre, body, post, sign, digits);
      assert WrittenNumber(s, pre, sign, digits, post) && ParseInt32(s).value == SignedValue(sign, digits);
    }
  }

  /** Framing `sign + digits` by number white space writes a number. */
  lemma FramedWritten(s: string, pre: string, body: string, post: string, sign: string, digits: string)
    requires s == pre + body + post && body == sign + digits
    requires forall k :: 0 <= k < |pre| ==> IsNumberWhite(pre[k])
    requires forall k :: 0 <= k < |post| ==> IsNumberWhite(post[k])
    requires sign == "" || sign == "+" || sign == "-"
    requires |digits| >= 1 && AllDigits(digits)
    ensures WrittenNumber(s, pre, sign, digits, post)
  {
    assert pre + (sign + digits) + post == pre + sign + digits + post;
  }

  /** The sign `ParseSigned` reads at the head of `body`, if any. */
  function SignPrefix(body: string): (sign: string)
    ensures sign == "" || sign == "+" || sign == "-"
    ensures |sign| <= |body| && sign == body[..|sign|]
  {
    if |body| > 0 && body[0] == '-' then "-"
    else if |body| > 0 && body[0] == '+' then "+"
    else ""
  }

  /** An accepted body is its sign and its digits, and is worth their
      signed value. */
  lemma SignedBody(body: string)
    requires ParseSigned(body).Some?
    ensures var digits := body[|SignPrefix(body)|..];
            && body == SignPrefix(body) + digits
            && |digits| >= 1 && AllDigits(digits)
            && ParseSigned(body).value == SignedValue(SignPrefix(body), digits)
  {
    var sign := SignPrefix(body);
    assert body == body[..|sign|] + body[|sign|..];
  }

  /** `s` is the trimmed text framed by the number white space trimmed off. */
  lemma TrimmedFrame(s: string) returns (pre: string, post: string)
    ensures s == pre + Text.TrimBy(s, IsNumberWhite) + post
    ensures forall k :: 0 <= k < |pre| ==> IsNumberWhite(pre[k])
    ensures forall k :: 0 <= k < |post| ==> IsNumberWhite(post[k])
  {
    var body := Text.TrimBy(s, IsNumberWhite);
    var i := Text.SkipForward(s, IsNumberWhite, 0);
    pre := s[..i];
    post := s[i + |body|..];
    assert s == s[..i] + s[i..i + |body|] + s[i + |body|..];
  }

  /** Round trip: `int.Parse` reads back what `ToString` wrote. */
  lemma ParseFormatInt32(n: int32)
    ensures ParseInt32(FormatInt32(n)) == Some(n)
  {
    var s := FormatInt32(n);
    var m: int := n;
    var sign := if m < 0 then "-" else "";
    var digits := Decimal(if m < 0 then -m else m);
    assert s == sign + digits;
    assert !IsNumberWhite(s[0]) && !IsNumberWhite(s[|s| - 1]);
    Text.TrimByOfClean(s, IsNumberWhite);
    ParseSignedDigits(sign, digits);
  }
}

=== FILE: protocol.dfy ===
/** What distinguishes the two server classes, and the fixed vocabulary
    both speak: reply strings, the storage location, the receive-buffer
    length, the close frame for oversized messages, and the exceptions the
    core can observe. */
module Protocol {
  import opened Wrappers
  import opened Numbers
  import Text

  /** `WebsocketCore` (Websocket.cs) sizes its buffer from the configured
      `Program.BufferSize` in MiB; `WebsocketServer` (WebsocketServer.cs)
      uses a fixed 512 MiB.  Everything else they share. */
  datatype Variant = WebsocketCore(bufferSizeMiB: int32) | WebsocketServer

  /** The exceptions the core can observe. */
  datatype Fault =
    | ObjectDisposed      // the socket or listener was already torn down
    | TransportFailure    // any other exception from the framing library
    | ArgumentOutOfRange  // `Encoding.GetString` asked for more bytes than the buffer has
    | IndexOutOfRange     // the byte copy ran past the end of the buffer
    | AccessDenied        // `File.Open` on a path that names a directory
    | DirectoryBlocked    // `Directory.CreateDirectory` over an existing file
    | Overflow            // `new byte[n]` with a negative `n`

  /** A message the server sends on the connection. */
  datatype Outgoing =
    | SendText(message: string)
    | SendClose(status: nat, description: string)

  // ---------------------------------------------------------------------
  // Replies

  /** An acknowledgement `<code>;<status>`; every reply the servers send
      has this shape with a one-digit code. */
  function Ack(code: char, status: string): string {
    [code] + ";" + status
  }

  /** `"9;undefined command"`. */
  const UndefinedCommandReply: string := "9;undefined command"

  /** `"0;0"` / `"0;received binary data command"`. */
  function ReceiveFileReply(v: Variant): string {
    match v
    case WebsocketCore(_) => "0;0"
    case WebsocketServer => "0;received binary data command"
  }

  /** Reply to command 1 (`DownloadFromTeamcenter` / `SendMessage`):
      `"1;9"` / `"1;received send message command"`. */
  function RemoteOperationReply(v: Variant): string {
    match v
    case WebsocketCore(_) => "1;9"
    case WebsocketServer => "1;received send message command"
  }

  /** `SendTransactionFinished`: `"0;0"` / `"0;File transfer successfully completed"`. */
  function TransferFinishedReply(v: Variant): string {
    match v
    case WebsocketCore(_) => "0;0"
    case WebsocketServer => "0;File transfer successfully completed"
  }

  // ---------------------------------------------------------------------
  // Receive buffer and the oversize close

  /** Close status 1009 "Message Too Big", section 7.4.1 of RFC 6455. */
  const MessageTooBig: nat := 1009

  /** The close reason as the source spells it: the second half of the
      concatenation is not an interpolated string, so the placeholder
      `{bufferLen:#,##0}` goes out literally. */
  const TooBigDescription: string :=
    "<Error>: Web socket frame cannot exceed buffer size of {bufferLen:#,##0} bytes. Send multiple frames instead."

  /** The close frame sent for an oversized message.  Its reason fits in a
      control frame: at most 123 bytes of reason after the 2-byte status
      (section 5.5 of RFC 6455); the text is ASCII, one byte per character. */
  function TooBigClose(): (o: Outgoing)
    ensures o.SendClose? && o.status == MessageTooBig
    ensures |o.description| <= 123
  {
    SendClose(MessageTooBig, TooBigDescription)
  }

  /** `bufferLen`: the C# `int` product `BufferSize * 1024 * 1024`, which
      wraps in unchecked arithmetic once `BufferSize` reaches 2048, or the
      constant 512 MiB. */
  function BufferLength(v: Variant): (len: int32)
    ensures v.WebsocketServer? ==> len == 0x2000_0000
    ensures v.WebsocketCore? && 0 <= v.bufferSizeMiB < 2048 ==> len == v.bufferSizeMiB * 0x10_0000
    ensures v.WebsocketCore? ==> (len - v.bufferSizeMiB * 0x10_0000) % 0x1_0000_0000 == 0
  {
    match v
    case WebsocketCore(mib) => Wrap32(mib * 1024 * 1024)
    case WebsocketServer => 512 * 1024 * 1024
  }

  /** Configured sizes from 2048 MiB on wrap: 2048 gives a negative length
      (so the buffer allocation throws) and 4096 gives an empty buffer. */
  lemma BufferLengthWraps()
    ensures BufferLength(WebsocketCore(2047)) == 2047 * 0x10_0000
    ensures BufferLength(WebsocketCore(2048)) == MinInt32
    ensures BufferLength(WebsocketCore(4096)) == 0
  {
  }

  // ---------------------------------------------------------------------
  // Storage location

  /** The storage directory below the working directory. */
  function StorageDirectory(v: Variant, cwd: string): string {
    match v
    case WebsocketCore(_) => cwd + "\\Data"
    case WebsocketServer => cwd + "\\downloads"
  }

  /** `Environment.CurrentDirectory + "\\Data\\" + DownloadFilename` (or
      `"\\downloads\\"`).  A null name concatenates as the empty string. */
  function StoragePath(v: Variant, cwd: string, name: Option<string>): string {
    StorageDirectory(v, cwd) + "\\" + OrEmpty(name)
  }

  /** A string-typed name as concatenation sees it: null is "". */
  function OrEmpty(name: Option<string>): string {
    match name
    case Some(n) => n
    case None => ""
  }

  /** Within one storage directory, two names give the same path exactly
      when they concatenate as the same text: different names never share a
      file, and only null and "" coincide. */
  lemma StoragePathInjective(v: Variant, cwd: string, a: Option<string>, b: Option<string>)
    ensures StoragePath(v, cwd, a) == StoragePath(v, cwd, b) <==> OrEmpty(a) == OrEmpty(b)
  {
    var prefix := StorageDirectory(v, cwd) + "\\";
    if StoragePath(v, cwd, a) == StoragePath(v, cwd, b) {
      assert StoragePath(v, cwd, a)[|prefix|..] == OrEmpty(a);
      assert StoragePath(v, cwd, b)[|prefix|..] == OrEmpty(b);
    }
  }

  /** For a separator-free name the storage path splits back into the
      storage directory and that name; a null name leaves an empty file
      name, i.e. a path that ends in a separator. */
  lemma StoragePathParts(v: Variant, cwd: string, name: Option<string>)
    requires name.Some? ==> forall k :: 0 <= k < |name.value| ==> !Text.IsSeparator(name.value[k])
    ensures Text.DirectoryName(StoragePath(v, cwd, name)) == StorageDirectory(v, cwd)
    ensures Text.GetFileName(StoragePath(v, cwd, name)) == OrEmpty(name)
  {
    var n := OrEmpty(name);
    assert StoragePath(v, cwd, name) == StorageDirectory(v, cwd) + ['\\'] + n;
    Text.SplitPathOf(StorageDirectory(v, cwd), '\\', n);
  }
}

=== FILE: receive_loop.dfy ===
/** The receive loop of `RespondToWebSocketRequestAsync`: one step per
    `ReceiveAsync` result, folded over the messages of a connection. */
module ReceiveLoop {
  import opened Wrappers
  import opened Numbers
  import opened Protocol
  import opened FileStore
  import opened ServerState
  import opened Commands
  import opened BinarySink
  import Text
  import Disposal

  /** `WebSocketMessageType`. */
  datatype MessageType = TextMessage | BinaryMessage | CloseMessage

  /** One `ReceiveAsync` call: either its result (type and `Count`) together
      with the receive buffer as it stands after the call, or the exception
      it threw. */
  datatype ReceiveEvent =
    | Received(messageType: MessageType, count: nat, buffer: seq<byte>)
    | ReceiveThrew(fault: Fault)

  /** Why the loop ended: the client closed; the message was too big; a
      receive exception was caught inside the loop (WebsocketServer only);
      or an exception escaped the loop. */
  datatype StopReason =
    | ClientClosed
    | TooBig
    | ReceiveAbandoned(cause: Fault)
    | Escaped(fault: Fault)

  datatype Next = Continue | Stop(reason: StopReason)

  datatype StepResult = StepResult(server: Server, sent: seq<Outgoing>, next: Next)

  /** What the loop takes from its surroundings: the working directory and
      UTF-8 decoding (`Encoding.UTF8.GetString`). */
  datatype Env = Env(cwd: string, decode: seq<byte> -> string)

  /** A receive that behaves as `ReceiveAsync` does with the one buffer the
      loop allocates: the buffer handed back has the allocated length. */
  predicate IntactBuffer(v: Variant, e: ReceiveEvent) {
    e.Received? ==> |e.buffer| == BufferLength(v)
  }

  /** One iteration of the loop.  Close is checked first and ends the loop
      silently; then a `Count` above the buffer length sends a Message Too
      Big close and ends the loop; then text goes to the command interpreter
      and binary data to the sink, and the loop goes on.  A receive
      exception ends the loop: WebsocketServer catches it, WebsocketCore
      lets it escape.  Only a text message can change the pending name, the
      lifecycle is never touched, and with an intact buffer the size check
      keeps every read of the buffer in bounds. */
  function Step(v: Variant, env: Env, s: Server, e: ReceiveEvent): (r: StepResult)
    ensures r.server.lifecycle == s.lifecycle
    ensures e.Received? && e.messageType == CloseMessage ==> r == StepResult(s, [], Stop(ClientClosed))
    ensures e.Received? && e.messageType != CloseMessage && e.count > BufferLength(v) ==>
              r == StepResult(s, [TooBigClose()], Stop(TooBig))
    ensures e.ReceiveThrew? ==>
              && r.server == s && r.sent == []
              && r.next == Stop(if v.WebsocketServer? then ReceiveAbandoned(e.fault) else Escaped(e.fault))
    ensures r.next.Continue? ==>
              e.Received? && e.messageType != CloseMessage && e.count <= BufferLength(v)
    ensures r.next.Stop? && r.next.reason.ReceiveAbandoned? ==> v.WebsocketServer?
    ensures v.WebsocketServer? && r.next.Stop? && r.next.reason.Escaped? ==> e.Received?
    ensures r.server.pending != s.pending ==> e.Received? && e.messageType == TextMessage
    ensures r.server != s ==> e.Received? && e.messageType != CloseMessage && e.count <= BufferLength(v)
    ensures Valid(s) ==> Valid(r.server)
    ensures e.Received? && IntactBuffer(v, e) && r.next.Stop? && r.next.reason.Escaped? ==>
              r.next.reason.fault != IndexOutOfRange && r.next.reason.fault != ArgumentOutOfRange
  {
    match e
    case ReceiveThrew(f) =>
      StepResult(s, [], Stop(if v.WebsocketServer? then ReceiveAbandoned(f) else Escaped(f)))
    case Received(messageType, count, buffer) =>
      if messageType == CloseMessage then
        StepResult(s, [], Stop(ClientClosed))
      else if count > BufferLength(v) then
        StepResult(s, [TooBigClose()], Stop(TooBig))
      else if messageType == TextMessage then
        if count > |buffer| then
          StepResult(s, [], Stop(Escaped(ArgumentOutOfRange)))
        else
          var r := ProcessTextMessage(v, s, env.decode(buffer[..count]));
          StepResult(r.server, r.sent, Continue)
      else
        if count > |buffer| then
          StepResult(s, [], Stop(Escaped(IndexOutOfRange)))
        else
          var r := ProcessBinaryData(v, env.cwd, s, buffer[..count]);
          StepResult(r.server, r.sent, if r.fault.Some? then Stop(Escaped(r.fault.value)) else Continue)
  }

  /** The loop over a connection's receives so far: the state reached, all
      messages sent in order, how many receives were handled, and why the
      loop stopped (`None`: it is waiting for the next message). */
  datatype RunResult = RunResult(server: Server, sent: seq<Outgoing>, consumed: nat, stop: Option<StopReason>)

  /** `while (true)` over `Step`, one message fully handled before the next. */
  function Run(v: Variant, env: Env, s: Server, events: seq<ReceiveEvent>): (r: RunResult)
    ensures r.consumed <= |events|
    ensures r.stop.None? ==> r.consumed == |events|
    ensures r.stop.Some? ==> r.consumed >= 1
    ensures r.server.lifecycle == s.lifecycle
    ensures Valid(s) ==> Valid(r.server)
    ensures r.stop.Some? && r.stop.value.ReceiveAbandoned? ==> v.WebsocketServer?
    decreases |events|
  {
    if |events| == 0 then
      RunResult(s, [], 0, None)
    else
      var first := Step(v, env, s, events[0]);
      if first.next.Stop? then
        RunResult(first.server, first.sent, 1, Some(first.next.reason))
      else
        var rest := Run(v, env, first.server, events[1..]);
        RunResult(rest.server, first.sent + rest.sent, 1 + rest.consumed, rest.stop)
  }

  /** In `WebsocketServer` a failed receive is caught, so an exception that
      escapes the loop always comes from handling a message that was
      received. */
  lemma {:induction false} EscapeFollowsReceive(v: Variant, env: Env, s: Server, events: seq<ReceiveEvent>)
    ensures var r := Run(v, env, s, events);
            v.WebsocketServer? && r.stop.Some? && r.stop.value.Escaped? ==> events[r.consumed - 1].Received?
    decreases |events|
  {
    if |events| > 0 {
      var first := Step(v, env, s, events[0]);
      RunFirst(v, env, s, events);
      if first.next.Continue? {
        EscapeFollowsReceive(v, env, first.server, events[1..]);
        var rest := Run(v, env, first.server, events[1..]);
        assert rest.stop.Some? ==> events[1..][rest.consumed - 1] == events[rest.consumed];
      }
    }
  }

  /** `first` followed by `rest`, the loop having continued after `first`. */
  function Then(first: RunResult, rest: RunResult): RunResult {
    RunResult(rest.server, first.sent + rest.sent, first.consumed + rest.consumed, rest.stop)
  }

  /** The loop's first iteration: stop after it, or go on with the rest. */
  lemma RunFirst(v: Variant, env: Env, s: Server, events: seq<ReceiveEvent>)
    requires |events| > 0
    ensures var first := Step(v, env, s, events[0]);
            Run(v, env, s, events) ==
              if first.next.Stop? then RunResult(first.server, first.sent, 1, Some(first.next.reason))
              else Then(RunResult(first.server, first.sent, 1, None), Run(v, env, first.server, events[1..]))
  {
  }

  /** Running `a` and then `b` is running `a + b`: receives are handled
      strictly in order, and once the loop has stopped, later messages are
      never read. */
  lemma {:induction false} RunAppend(v: Variant, env: Env, s: Server, a: seq<ReceiveEvent>, b: seq<ReceiveEvent>)
    ensures Run(v, env, s, a).stop.Some? ==> Run(v, env, s, a + b) == Run(v, env, s, a)
    ensures Run(v, env, s, a).stop.None? ==>
              Run(v, env, s, a + b) == Then(Run(v, env, s, a), Run(v, env, Run(v, env, s, a).server, b))
    decreases |a|
  {
    if |a| == 0 {
      assert a + b == b;
      assert [] + Run(v, env, s, b).sent == Run(v, env, s, b).sent;
    } else {
      var ab := a + b;
      assert ab[0] == a[0];
      assert ab[1..] == a[1..] + b;
      RunFirst(v, env, s, a);
      RunFirst(v, env, s, ab);
      var first := Step(v, env, s, a[0]);
      if first.next.Continue? {
        RunAppend(v, env, first.server, a[1..], b);
        RunAppendContinued(first, Run(v, env, first.server, a[1..]), Run(v, env, Run(v, env, first.server, a[1..]).server, b));
      }
    }
  }

  /** `Then` is associative when the middle part did not stop. */
  lemma RunAppendContinued(first: StepResult, tail: RunResult, rest: RunResult)
    ensures Then(RunResult(first.server, first.sent, 1, None), Then(tail, rest))
            == Then(Then(RunResult(first.server, first.sent, 1, None), tail), rest)
  {
    assert first.sent + (tail.sent + rest.sent) == (first.sent + tail.sent) + rest.sent;
  }

  /** After the client's close, nothing further is read or sent. */
  lemma CloseEndsLoop(v: Variant, env: Env, s: Server, a: seq<ReceiveEvent>, buffer: seq<byte>, count: nat, b: seq<ReceiveEvent>)
    requires Run(v, env, s, a).stop.None?
    ensures var ra := Run(v, env, s, a);
            Run(v, env, s, a + [Received(CloseMessage, count, buffer)] + b)
            == RunResult(ra.server, ra.sent, |a| + 1, Some(ClientClosed))
  {
    var close := [Received(CloseMessage, count, buffer)];
    RunAppend(v, env, s, a, close);
    RunAppend(v, env, s, a + close, b);
    assert Run(v, env, Run(v, env, s, a).server, close).sent == [];
    assert Run(v, env, s, a).sent + [] == Run(v, env, s, a).sent;
  }

  /** Binary messages, closes and failed receives never change the pending
      name: only a text command can. */
  lemma {:induction false} PendingNeedsText(v: Variant, env: Env, s: Server, events: seq<ReceiveEvent>)
    requires forall k :: 0 <= k < |events| ==> !(events[k].Received? && events[k].messageType == TextMessage)
    ensures Run(v, env, s, events).server.pending == s.pending
    decreases |events|
  {
    if |events| > 0 {
      var first := Step(v, env, s, events[0]);
      PendingNeedsText(v, env, first.server, events[1..]);
    }
  }

  // ---------------------------------------------------------------------
  // Transfers

  /** A name `ReceiveFile` stores unchanged. */
  ghost predicate CleanName(name: string) {
    && name != []
    && ';' !in name
    && (forall k :: 0 <= k < |name| ==> !Text.IsSeparator(name[k]))
    && !Text.IsWhiteSpace(name[0]) && !Text.IsWhiteSpace(name[|name| - 1])
  }

  /** `0;<name>` sets the pending name to `name` and is acknowledged. */
  lemma ReceiveFileCommand(v: Variant, s: Server, name: string)
    requires CleanName(name)
    ensures ProcessTextMessage(v, s, Ack('0', name))
            == Reaction(s.(pending := Some(name)), [SendText(ReceiveFileReply(v))], None)
  {
    assert DigitChar(0) == '0';
    DigitEnvelopeDecodes(0, name, "");
    assert Ack('0', name) + "" == Ack('0', name);
    Text.GetFileNameOfPlain(name);
    Text.TrimByOfClean(name, Text.IsWhiteSpace);
  }

  /** A loop over one receive is one step. */
  lemma RunSingle(v: Variant, env: Env, s: Server, e: ReceiveEvent)
    ensures var first := Step(v, env, s, e);
            Run(v, env, s, [e]) == RunResult(first.server, first.sent, 1,
                                             if first.next.Stop? then Some(first.next.reason) else None)
  {
    RunFirst(v, env, s, [e]);
    assert [e][1..] == [];
    var first := Step(v, env, s, e);
    assert first.sent + [] == first.sent;
  }

  /** A loop over two receives, the first of which lets the loop go on. */
  lemma RunTwo(v: Variant, env: Env, s: Server, first: ReceiveEvent, second: ReceiveEvent,
               mid: Server, sent: seq<Outgoing>, last: RunResult)
    requires Run(v, env, s, [first]) == RunResult(mid, sent, 1, None)
    requires Run(v, env, mid, [second]) == last
    ensures Run(v, env, s, [first, second]) == RunResult(last.server, sent + last.sent, 1 + last.consumed, last.stop)
  {
    RunAppend(v, env, s, [first], [second]);
    assert [first] + [second] == [first, second];
  }

  /** The text message `0;<name>` sets the pending name to `name` and is
      acknowledged, and the loop goes on. */
  lemma ReceiveFileStep(v: Variant, env: Env, s: Server, name: string, text: seq<byte>, buffer: seq<byte>)
    requires CleanName(name)
    requires env.decode(text) == Ack('0', name)
    requires |text| <= BufferLength(v) && |text| <= |buffer| && buffer[..|text|] == text
    ensures Step(v, env, s, Received(TextMessage, |text|, buffer))
            == StepResult(s.(pending := Some(name)), [SendText(ReceiveFileReply(v))], Continue)
  {
    ReceiveFileCommand(v, s, name);
  }

  /** The same, as a loop over that one receive. */
  lemma ReceiveFileRun(v: Variant, env: Env, s: Server, name: string, text: seq<byte>, buffer: seq<byte>)
    requires CleanName(name)
    requires env.decode(text) == Ack('0', name)
    requires |text| <= BufferLength(v) && |text| <= |buffer| && buffer[..|text|] == text
    ensures Run(v, env, s, [Received(TextMessage, |text|, buffer)])
            == RunResult(s.(pending := Some(name)), [SendText(ReceiveFileReply(v))], 1, None)
  {
    ReceiveFileStep(v, env, s, name, text, buffer);
    RunSingle(v, env, s, Received(TextMessage, |text|, buffer));
  }

  /** A text message within the buffer: exactly its first `Count` bytes are
      decoded and interpreted, what the interpreter sends is sent, and the
      loop goes on whatever the message said. */
  lemma TextStep(v: Variant, env: Env, s: Server, text: seq<byte>, buffer: seq<byte>)
    requires |text| <= BufferLength(v) && |text| <= |buffer| && buffer[..|text|] == text
    ensures var r := ProcessTextMessage(v, s, env.decode(text));
            Step(v, env, s, Received(TextMessage, |text|, buffer)) == StepResult(r.server, r.sent, Continue)
  {
  }

  /** A binary message within the buffer is handed, exactly its first
      `Count` bytes, to the sink; the loop goes on unless saving threw. */
  lemma BinaryStep(v: Variant, env: Env, s: Server, data: seq<byte>, buffer: seq<byte>)
    requires |data| <= BufferLength(v) && |data| <= |buffer| && buffer[..|data|] == data
    ensures var r := ProcessBinaryData(v, env.cwd, s, data);
            Step(v, env, s, Received(BinaryMessage, |data|, buffer))
            == StepResult(r.server, r.sent, if r.fault.Some? then Stop(Escaped(r.fault.value)) else Continue)
  {
  }

  /** A binary message while a clean name is pending, as a loop over that
      one receive: stored, acknowledged, and the loop goes on. */
  lemma BinaryRun(v: Variant, env: Env, s: Server, data: seq<byte>, buffer: seq<byte>) returns (after: Server)
    requires Valid(s) && s.pending.Some? && CleanName(s.pending.value)
    requires |data| <= BufferLength(v) && |data| <= |buffer| && buffer[..|data|] == data
    requires StorageDirectory(v, env.cwd) !in s.fs.files
    requires StoragePath(v, env.cwd, s.pending) !in s.fs.dirs
    ensures Run(v, env, s, [Received(BinaryMessage, |data|, buffer)])
            == RunResult(after, [SendText(TransferFinishedReply(v))], 1, None)
    ensures after == ProcessBinaryData(v, env.cwd, s, data).server
  {
    SinkStores(v, env.cwd, s, data);
    BinaryStep(v, env, s, data, buffer);
    RunSingle(v, env, s, Received(BinaryMessage, |data|, buffer));
    after := ProcessBinaryData(v, env.cwd, s, data).server;
  }

  /** The intended transfer: `0;<name>` then one binary message creates
      `<storage>\<name>` holding exactly the message's bytes, with both
      acknowledgements sent and the loop still running. */
  lemma TransferStoresFile(v: Variant, env: Env, s: Server, name: string,
                           text: seq<byte>, textBuffer: seq<byte>, data: seq<byte>, dataBuffer: seq<byte>)
    returns (after: Server)
    requires Valid(s) && CleanName(name)
    requires env.decode(text) == Ack('0', name)
    requires |text| <= BufferLength(v) && |text| <= |textBuffer| && textBuffer[..|text|] == text
    requires |data| <= BufferLength(v) && |data| <= |dataBuffer| && dataBuffer[..|data|] == data
    requires StorageDirectory(v, env.cwd) !in s.fs.files
    requires StoragePath(v, env.cwd, Some(name)) !in s.fs.dirs + s.fs.files.Keys
    ensures Run(v, env, s, [Received(TextMessage, |text|, textBuffer), Received(BinaryMessage, |data|, dataBuffer)])
            == RunResult(after, [SendText(ReceiveFileReply(v))] + [SendText(TransferFinishedReply(v))], 2, None)
    ensures after.pending == Some(name)
    ensures after.fs.files == s.fs.files[StoragePath(v, env.cwd, Some(name)) := data]
  {
    var named := s.(pending := Some(name));
    ReceiveFileRun(v, env, s, name, text, textBuffer);
    assert Valid(named);
    after := BinaryRun(v, env, named, data, dataBuffer);
    SinkStores(v, env.cwd, named, data);
    RunTwo(v, env, s, Received(TextMessage, |text|, textBuffer), Received(BinaryMessage, |data|, dataBuffer),
           named, [SendText(ReceiveFileReply(v))], RunResult(after, [SendText(TransferFinishedReply(v))], 1, None));
  }

  /** The pending name is never cleared: a second binary message with no new
      command targets the same file, which now exists, so its bytes are
      dropped, yet the completion reply is sent again. */
  lemma StaleNameKeepsFirstTransfer(v: Variant, env: Env, s: Server, name: string,
                                    data: seq<byte>, buffer: seq<byte>, again: seq<byte>, againBuffer: seq<byte>)
    returns (after: Server)
    requires Valid(s) && CleanName(name) && s.pending == Some(name)
    requires |data| <= BufferLength(v) && |data| <= |buffer| && buffer[..|data|] == data
    requires |again| <= BufferLength(v) && |again| <= |againBuffer| && againBuffer[..|again|] == again
    requires StorageDirectory(v, env.cwd) !in s.fs.files
    requires StoragePath(v, env.cwd, Some(name)) !in s.fs.dirs + s.fs.files.Keys
    ensures Run(v, env, s, [Received(BinaryMessage, |data|, buffer), Received(BinaryMessage, |again|, againBuffer)])
            == RunResult(after, [SendText(TransferFinishedReply(v))] + [SendText(TransferFinishedReply(v))], 2, None)
    ensures after.pending == Some(name)
    ensures after.fs.files == s.fs.files[StoragePath(v, env.cwd, Some(name)) := data]
  {
    var path := StoragePath(v, env.cwd, Some(name));
    var once := BinaryRun(v, env, s, data, buffer);
    SinkStores(v, env.cwd, s, data);
    assert path != StorageDirectory(v, env.cwd) by {
      assert |path| > |StorageDirectory(v, env.cwd)|;
    }
    after := BinaryRun(v, env, once, again, againBuffer);
    SinkStores(v, env.cwd, once, again);
    RunTwo(v, env, s, Received(BinaryMessage, |data|, buffer), Received(BinaryMessage, |again|, againBuffer),
           once, [SendText(TransferFinishedReply(v))], RunResult(after, [SendText(TransferFinishedReply(v))], 1, None));
  }

  /** The guard `DownloadFilename != ""` lets the initial null through: a
      binary message before any `ReceiveFile` command aims at the storage
      directory itself, saving throws, and the exception ends the loop with
      no reply and no file written. */
  lemma BinaryBeforeCommandEscapes(v: Variant, env: Env, s: Server, data: seq<byte>, buffer: seq<byte>)
    requires Valid(s) && s.pending.None?
    requires |data| <= BufferLength(v) && |data| <= |buffer| && buffer[..|data|] == data
    ensures var r := Run(v, env, s, [Received(BinaryMessage, |data|, buffer)]);
            && r.stop.Some? && r.stop.value.Escaped?
            && r.sent == []
            && r.server.fs.files == s.fs.files
  {
  }

  /** On a newly constructed server the very first upload, sent before any
      `ReceiveFile` command, ends the loop by an exception: nothing is sent
      and no file is written. */
  lemma FirstUploadEscapes(v: Variant, env: Env, fs: FileSystem, listener: Disposal.Listener,
                           data: seq<byte>, buffer: seq<byte>)
    requires WellFormed(fs)
    requires |data| <= BufferLength(v) && |data| <= |buffer| && buffer[..|data|] == data
    ensures var r := Run(v, env, Initial(fs, listener), [Received(BinaryMessage, |data|, buffer)]);
            && r.stop.Some? && r.stop.value.Escaped?
            && r.sent == []
            && r.server.fs.files == fs.files
  {
    BinaryBeforeCommandEscapes(v, env, Initial(fs, listener), data, buffer);
  }
}

=== FILE: server_state.dfy ===
/** The state one server object carries across messages and connections. */
module ServerState {
  import opened Wrappers
  import opened Protocol
  import opened FileStore
  import opened Disposal
  import Text

  /** `DownloadFilename` (`None` is C# null, its initial value), the file
      system the sink writes to, and the `_isDisposed` lifecycle.  There is
      one `Server` per server object, shared by all of its connections. */
  datatype Server = Server(pending: Option<string>, fs: FileSystem, lifecycle: Lifecycle)

  /** The invariant every reachable server keeps: the file system is well
      formed and a pending name, once set, holds no directory separator. */
  ghost predicate Valid(s: Server) {
    && WellFormed(s.fs)
    && (s.pending.Some? ==> forall k :: 0 <= k < |s.pending.value| ==> !Text.IsSeparator(s.pending.value[k]))
  }

  /** What handling one message does: the new state, the messages sent in
      order, and the exception that escaped, if any. */
  datatype Reaction = Reaction(server: Server, sent: seq<Outgoing>, fault: Option<Fault>)

  /** A newly constructed server: no pending name, not disposed. */
  function Initial(fs: FileSystem, listener: Listener): (s: Server)
    ensures s.pending.None? && !s.lifecycle.disposed && s.fs == fs
    ensures WellFormed(fs) ==> Valid(s)
  {
    Server(None, fs, Fresh(listener))
  }
}

=== FILE: sharing.dfy ===
/** Several connections served by one server object.  Every connection
    task reads and writes the same `DownloadFilename` field; running their
    receives one at a time, in any interleaving, shows what that sharing
    does. */
module Sharing {
  import opened Wrappers
  import opened Numbers
  import opened Protocol
  import opened FileStore
  import opened ServerState
  import opened Disposal
  import opened Connections
  import opened ReceiveLoop
  import opened BinarySink

  /** A connection arrives with its handshake; a receive completes on a
      connection; the server is disposed. */
  datatype WorldEvent =
    | Connect(conn: nat, handshake: Handshake)
    | Deliver(conn: nat, event: ReceiveEvent)
    | Shutdown(closeFails: bool)

  /** A message sent on a given connection. */
  datatype Tagged = Tagged(conn: nat, message: Outgoing)

  /** The one shared server, the connections whose receive loop is running,
      and every message sent so far, in order. */
  datatype World = World(server: Server, live: set<nat>, log: seq<Tagged>)

  function Tag(conn: nat, sent: seq<Outgoing>): (t: seq<Tagged>)
    ensures |t| == |sent|
    ensures forall k :: 0 <= k < |t| ==> t[k] == Tagged(conn, sent[k])
  {
    seq(|sent|, k requires 0 <= k < |sent| => Tagged(conn, sent[k]))
  }

  /** Whether a connection gets as far as the receive loop. */
  predicate Admitted(v: Variant, s: Server, hs: Handshake) {
    !s.lifecycle.disposed && hs.UpgradeRequest? && hs.acceptFault.None? && BufferLength(v) >= 0
  }

  /** The connection handler agrees: an admitted connection, before its
      first message, is waiting in the loop; any other has already ended. */
  lemma AdmittedMeansWaiting(v: Variant, env: Env, supported: set<string>, s: Server, hs: Handshake)
    ensures Admitted(v, s, hs) <==> ProcessConnection(v, env, supported, s, hs, []).outcome == Waiting
  {
    if !s.lifecycle.disposed && hs.UpgradeRequest? && hs.acceptFault.Some? {
      assert ProcessConnection(v, env, supported, s, hs, []).outcome == Escape(hs.acceptFault.value);
    }
  }

  /** One event.  An admitted connection joins the live set (an id already
      live is left alone); a receive on a live connection is one loop step
      on the shared server, and a step that stops the loop ends that
      connection; receives on other ids are ignored.  Disposal flips the
      lifecycle but ends no running loop. */
  function WorldStep(v: Variant, env: Env, w: World, ev: WorldEvent): (w': World)
    ensures |w.log| <= |w'.log| && w'.log[..|w.log|] == w.log
    ensures w'.live - w.live <= (if ev.Connect? then {ev.conn} else {})
    ensures ev.Connect? && (w.server.lifecycle.disposed || ev.conn in w.live) ==> w' == w
    ensures ev.Deliver? && ev.conn !in w.live ==> w' == w
    ensures ev.Connect? ==>
              && w'.server == w.server && w'.log == w.log
              && w'.live == (if ev.conn !in w.live && Admitted(v, w.server, ev.handshake) then w.live + {ev.conn} else w.live)
    ensures ev.Shutdown? ==> w'.live == w.live && w'.server.lifecycle.disposed
    ensures ev.Shutdown? ==> w'.server.fs == w.server.fs && w'.server.pending == w.server.pending && w'.log == w.log
    ensures w'.server.pending != w.server.pending ==>
              ev.Deliver? && ev.conn in w.live && ev.event.Received? && ev.event.messageType == TextMessage
    ensures forall k :: |w.log| <= k < |w'.log| ==> ev.Deliver? && w'.log[k].conn == ev.conn
    ensures Valid(w.server) ==> Valid(w'.server)
  {
    match ev
    case Connect(c, hs) =>
      if c in w.live || !Admitted(v, w.server, hs) then w
      else w.(live := w.live + {c})
    case Deliver(c, e) =>
      if c !in w.live then w
      else
        var r := Step(v, env, w.server, e);
        World(r.server, if r.next.Stop? then w.live - {c} else w.live, w.log + Tag(c, r.sent))
    case Shutdown(closeFails) =>
      w.(server := w.server.(lifecycle := Dispose(w.server.lifecycle, closeFails).after))
  }

  function WorldRun(v: Variant, env: Env, w: World, events: seq<WorldEvent>): (w': World)
    ensures |w.log| <= |w'.log| && w'.log[..|w.log|] == w.log
    ensures Valid(w.server) ==> Valid(w'.server)
    decreases |events|
  {
    if |events| == 0 then w else WorldRun(v, env, WorldStep(v, env, w, events[0]), events[1..])
  }

  /** The first event, then the rest. */
  lemma WorldRunFirst(v: Variant, env: Env, w: World, events: seq<WorldEvent>)
    requires |events| > 0
    ensures WorldRun(v, env, w, events) == WorldRun(v, env, WorldStep(v, env, w, events[0]), events[1..])
  {
  }

  /** `es` delivered, in order, on connection `conn`. */
  function DeliverAll(conn: nat, es: seq<ReceiveEvent>): (evs: seq<WorldEvent>)
    ensures |evs| == |es|
    decreases |es|
  {
    if |es| == 0 then [] else [Deliver(conn, es[0])] + DeliverAll(conn, es[1..])
  }

  /** Receives on a connection whose loop is not running change nothing. */
  lemma {:induction false} DeadConnectionIgnored(v: Variant, env: Env, w: World, conn: nat, es: seq<ReceiveEvent>)
    requires conn !in w.live
    ensures WorldRun(v, env, w, DeliverAll(conn, es)) == w
    decreases |es|
  {
    if |es| > 0 {
      var evs := DeliverAll(conn, es);
      assert evs[0] == Deliver(conn, es[0]) && evs[1..] == DeliverAll(conn, es[1..]);
      DeadConnectionIgnored(v, env, w, conn, es[1..]);
    }
  }

  lemma TagOne(conn: nat, m: Outgoing)
    ensures Tag(conn, [m]) == [Tagged(conn, m)]
  {
  }

  /** A receive on a live connection is one loop step. */
  lemma DeliverLive(v: Variant, env: Env, w: World, conn: nat, e: ReceiveEvent)
    requires conn in w.live
    ensures var r := Step(v, env, w.server, e);
            WorldStep(v, env, w, Deliver(conn, e))
            == World(r.server, if r.next.Stop? then w.live - {conn} else w.live, w.log + Tag(conn, r.sent))
  {
  }

  lemma TagAppend(conn: nat, a: seq<Outgoing>, b: seq<Outgoing>)
    ensures Tag(conn, a + b) == Tag(conn, a) + Tag(conn, b)
  {
  }

  /** The world after a connection's loop has produced `r`. */
  function Served(w: World, conn: nat, r: RunResult): World {
    World(r.server, if r.stop.None? then w.live else w.live - {conn}, w.log + Tag(conn, r.sent))
  }

  /** With no other connection active, the world serves a connection exactly
      as its own receive loop does: the same final state, the same messages
      in the same order, and the connection stays live exactly when the
      loop has not stopped. */
  lemma {:induction false} SoleConnectionIsRun(v: Variant, env: Env, w: World, conn: nat, es: seq<ReceiveEvent>)
    requires conn in w.live
    ensures WorldRun(v, env, w, DeliverAll(conn, es)) == Served(w, conn, Run(v, env, w.server, es))
    decreases |es|
  {
    var evs := DeliverAll(conn, es);
    if |es| == 0 {
      assert w.log + Tag(conn, []) == w.log;
    } else {
      assert evs[0] == Deliver(conn, es[0]) && evs[1..] == DeliverAll(conn, es[1..]);
      WorldRunFirst(v, env, w, evs);
      RunFirst(v, env, w.server, es);
      DeliverLive(v, env, w, conn, es[0]);
      var first := Step(v, env, w.server, es[0]);
      var w1 := WorldStep(v, env, w, evs[0]);
      if first.next.Stop? {
        DeadConnectionIgnored(v, env, w1, conn, es[1..]);
      } else {
        SoleConnectionIsRun(v, env, w1, conn, es[1..]);
        ServedAfterStep(w, conn, first, Run(v, env, first.server, es[1..]));
      }
    }
  }

  /** Serving the first message and then the rest is serving them all. */
  lemma ServedAfterStep(w: World, conn: nat, first: StepResult, rest: RunResult)
    requires conn in w.live
    ensures var w1 := World(first.server, w.live, w.log + Tag(conn, first.sent));
            Served(w1, conn, rest) == Served(w, conn, Then(RunResult(first.server, first.sent, 1, None), rest))
  {
    TagAppend(conn, first.sent, rest.sent);
    assert w.log + Tag(conn, first.sent) + Tag(conn, rest.sent) == w.log + Tag(conn, first.sent + rest.sent);
  }

  /** `0;<name>` on a live connection sets the shared pending name and is
      acknowledged on that connection. */
  lemma AnnounceStep(v: Variant, env: Env, w: World, conn: nat, name: string, text: seq<byte>, buffer: seq<byte>)
    requires conn in w.live && CleanName(name)
    requires env.decode(text) == Ack('0', name)
    requires |text| <= BufferLength(v) && |text| <= |buffer| && buffer[..|text|] == text
    ensures WorldStep(v, env, w, Deliver(conn, Received(TextMessage, |text|, buffer)))
            == World(w.server.(pending := Some(name)), w.live, w.log + [Tagged(conn, SendText(ReceiveFileReply(v)))])
  {
    ReceiveFileStep(v, env, w.server, name, text, buffer);
    DeliverLive(v, env, w, conn, Received(TextMessage, |text|, buffer));
    TagOne(conn, SendText(ReceiveFileReply(v)));
  }

  /** A binary message on a live connection goes to the sink under
      whatever name is pending, whoever announced it. */
  lemma UploadStep(v: Variant, env: Env, w: World, conn: nat, data: seq<byte>, buffer: seq<byte>)
    requires conn in w.live
    requires Valid(w.server) && w.server.pending.Some? && w.server.pending.value != ""
    requires StorageDirectory(v, env.cwd) !in w.server.fs.files
    requires StoragePath(v, env.cwd, w.server.pending) !in w.server.fs.dirs
    requires |data| <= BufferLength(v) && |data| <= |buffer| && buffer[..|data|] == data
    ensures WorldStep(v, env, w, Deliver(conn, Received(BinaryMessage, |data|, buffer)))
            == World(ProcessBinaryData(v, env.cwd, w.server, data).server, w.live,
                     w.log + [Tagged(conn, SendText(TransferFinishedReply(v)))])
  {
    SinkStores(v, env.cwd, w.server, data);
    BinaryStep(v, env, w.server, data, buffer);
    DeliverLive(v, env, w, conn, Received(BinaryMessage, |data|, buffer));
    TagOne(conn, SendText(TransferFinishedReply(v)));
  }

  lemma WorldRunThree(v: Variant, env: Env, w: World, e1: WorldEvent, e2: WorldEvent, e3: WorldEvent)
    ensures WorldRun(v, env, w, [e1, e2, e3])
            == WorldStep(v, env, WorldStep(v, env, WorldStep(v, env, w, e1), e2), e3)
  {
    var evs := [e1, e2, e3];
    assert evs[1..] == [e2, e3] && evs[1..][1..] == [e3] && evs[1..][1..][1..] == [];
    WorldRunFirst(v, env, w, evs);
    WorldRunFirst(v, env, WorldStep(v, env, w, e1), evs[1..]);
    WorldRunFirst(v, env, WorldStep(v, env, WorldStep(v, env, w, e1), e2), evs[1..][1..]);
  }

  /** The pending name is server-wide.  Client A announces `x`, client B
      then announces `y`, and A's bytes land under B's name `y`: no other
      file appears, so A's `x` is not created unless it equals `y`, and B's
      later upload to `y` would find the file taken and be dropped. */
  lemma AnnouncementsInterleave(v: Variant, env: Env, w: World, a: nat, b: nat, x: string, y: string,
                                textX: seq<byte>, bufferX: seq<byte>, textY: seq<byte>, bufferY: seq<byte>,
                                data: seq<byte>, buffer: seq<byte>)
    returns (w': World)
    requires a in w.live && b in w.live && a != b
    requires Valid(w.server) && CleanName(x) && CleanName(y)
    requires env.decode(textX) == Ack('0', x) && env.decode(textY) == Ack('0', y)
    requires |textX| <= BufferLength(v) && |textX| <= |bufferX| && bufferX[..|textX|] == textX
    requires |textY| <= BufferLength(v) && |textY| <= |bufferY| && bufferY[..|textY|] == textY
    requires |data| <= BufferLength(v) && |data| <= |buffer| && buffer[..|data|] == data
    requires StorageDirectory(v, env.cwd) !in w.server.fs.files
    requires StoragePath(v, env.cwd, Some(y)) !in w.server.fs.dirs + w.server.fs.files.Keys
    ensures w' == WorldRun(v, env, w, [Deliver(a, Received(TextMessage, |textX|, bufferX)),
                                       Deliver(b, Received(TextMessage, |textY|, bufferY)),
                                       Deliver(a, Received(BinaryMessage, |data|, buffer))])
    ensures w'.server.pending == Some(y)
    ensures w'.server.fs.files == w.server.fs.files[StoragePath(v, env.cwd, Some(y)) := data]
    ensures w'.live == w.live
    ensures w'.log == w.log + [Tagged(a, SendText(ReceiveFileReply(v)))]
                            + [Tagged(b, SendText(ReceiveFileReply(v)))]
                            + [Tagged(a, SendText(TransferFinishedReply(v)))]
  {
    var e1 := Deliver(a, Received(TextMessage, |textX|, bufferX));
    var e2 := Deliver(b, Received(TextMessage, |textY|, bufferY));
    var e3 := Deliver(a, Received(BinaryMessage, |data|, buffer));
    AnnounceStep(v, env, w, a, x, textX, bufferX);
    var w1 := WorldStep(v, env, w, e1);
    AnnounceStep(v, env, w1, b, y, textY, bufferY);
    var w2 := WorldStep(v, env, w1, e2);
    assert Valid(w2.server);
    UploadStep(v, env, w2, a, data, buffer);
    SinkStores(v, env.cwd, w2.server, data);
    WorldRunThree(v, env, w, e1, e2, e3);
    w' := WorldStep(v, env, w2, e3);
  }

  /** After disposal no new connection is admitted, while connections
      already in their receive loop carry on. */
  lemma {:induction false} ShutdownAdmitsNoOne(v: Variant, env: Env, w: World, closeFails: bool, events: seq<WorldEvent>)
    requires forall k :: 0 <= k < |events| ==> !events[k].Deliver?
    ensures var w' := WorldRun(v, env, w, [Shutdown(closeFails)] + events);
            w'.live == w.live && w'.server.lifecycle.disposed
    decreases |events|
  {
    var down := WorldStep(v, env, w, Shutdown(closeFails));
    assert ([Shutdown(closeFails)] + events)[1..] == events;
    StaysDisposed(v, env, down, events);
  }

  /** With the server disposed, connects and further disposals change no
      live set and keep the flag set. */
  lemma {:induction false} StaysDisposed(v: Variant, env: Env, w: World, events: seq<WorldEvent>)
    requires w.server.lifecycle.disposed
    requires forall k :: 0 <= k < |events| ==> !events[k].Deliver?
    ensures WorldRun(v, env, w, events).live == w.live
    ensures WorldRun(v, env, w, events).server.lifecycle.disposed
    decreases |events|
  {
    if |events| > 0 {
      var w1 := WorldStep(v, env, w, events[0]);
      StaysDisposed(v, env, w1, events[1..]);
    }
  }
}

=== FILE: text.dfy ===
/** String helpers the servers borrow from .NET: `String.Split(char)`,
    `String.Trim()` and `Path.GetFileName` / `Path.GetDirectoryName`,
    each written out over `seq<char>`. */
module Text {

  /** The characters `Char.IsWhiteSpace` accepts, which `String.Trim()`
      strips: U+0009..U+000D, U+0020, U+0085, U+00A0 and the Unicode
      space, line and paragraph separators. */
  predicate IsWhiteSpace(c: char) {
    || ('\t' <= c <= '\r')
    || c == ' '
    || c == '\U{0085}'
    || c == '\U{00A0}'
    || c == '\U{1680}'
    || ('\U{2000}' <= c <= '\U{200A}')
    || c == '\U{2028}'
    || c == '\U{2029}'
    || c == '\U{202F}'
    || c == '\U{205F}'
    || c == '\U{3000}'
  }

  /** Directory separators on Windows: `\` and the alternative `/`. */
  predicate IsSeparator(c: char) {
    c == '\\' || c == '/'
  }

  // ---------------------------------------------------------------------
  // Trimming

  /** The index of the first character at or after `i` that `strip` does
      not accept (`|s|` when there is none). */
  function SkipForward(s: string, strip: char -> bool, i: nat): (j: nat)
    requires i <= |s|
    ensures i <= j <= |s|
    ensures forall k :: i <= k < j ==> strip(s[k])
    ensures j == |s| || !strip(s[j])
    decreases |s| - i
  {
    if i < |s| && strip(s[i]) then SkipForward(s, strip, i + 1) else i
  }

  /** The index just past the last character before `j`, and not before
      `lo`, that `strip` does not accept (`lo` when there is none). */
  function SkipBackward(s: string, strip: char -> bool, lo: nat, j: nat): (e: nat)
    requires lo <= j <= |s|
    ensures lo <= e <= j
    ensures forall k :: e <= k < j ==> strip(s[k])
    ensures e == lo || !strip(s[e - 1])
    decreases j
  {
    if lo < j && strip(s[j - 1]) then SkipBackward(s, strip, lo, j - 1) else j
  }

  /** Strips `strip` characters from both ends: the result is a slice of
      `s`, everything outside the slice satisfies `strip`, and neither end
      of the slice does. */
  function TrimBy(s: string, strip: char -> bool): (t: string)
    ensures |t| <= |s|
    ensures var i := SkipForward(s, strip, 0);
            && i + |t| <= |s| && t == s[i..i + |t|]
            && (forall k :: 0 <= k < i ==> strip(s[k]))
            && (forall k :: i + |t| <= k < |s| ==> strip(s[k]))
    ensures t == [] || (!strip(t[0]) && !strip(t[|t| - 1]))
  {
    var i := SkipForward(s, strip, 0);
    var e := SkipBackward(s, strip, i, |s|);
    assert e > i ==> s[i..e][0] == s[i] && s[i..e][e - i - 1] == s[e - 1];
    s[i..e]
  }

  /** `String.Trim()`: strips `Char.IsWhiteSpace` characters from both ends.
      The result is the slice of `s` that starts at its first character that
      is not white space; everything before and after it is white space, and
      neither end of it is. */
  function Trim(s: string): (t: string)
    ensures |t| <= |s|
    ensures var i := SkipForward(s, IsWhiteSpace, 0);
            && i + |t| <= |s| && t == s[i..i + |t|]
            && (forall k :: 0 <= k < i ==> IsWhiteSpace(s[k]))
            && (forall k :: i + |t| <= k < |s| ==> IsWhiteSpace(s[k]))
    ensures t == [] || (!IsWhiteSpace(t[0]) && !IsWhiteSpace(t[|t| - 1]))
    ensures forall k :: 0 <= k < |t| ==> t[k] in s
  {
    var t := TrimBy(s, IsWhiteSpace);
    var i := SkipForward(s, IsWhiteSpace, 0);
    assert forall k :: 0 <= k < |t| ==> t[k] == s[i + k];
    t
  }

  /** A string with neither end satisfying `strip` is left as it is. */
  lemma TrimByOfClean(s: string, strip: char -> bool)
    requires s == [] || (!strip(s[0]) && !strip(s[|s| - 1]))
    ensures TrimBy(s, strip) == s
  {
    assert SkipForward(s, strip, 0) == 0;
    assert SkipBackward(s, strip, 0, |s|) == |s|;
    assert s[0..|s|] == s;
  }

  /** Trimming `pre + core + post`, where `pre` and `post` are all `strip`
      characters and neither end of a non-empty `core` is, gives `core`. */
  lemma TrimByFramed(pre: string, core: string, post: string, strip: char -> bool)
    requires forall k :: 0 <= k < |pre| ==> strip(pre[k])
    requires forall k :: 0 <= k < |post| ==> strip(post[k])
    requires |core| > 0 && !strip(core[0]) && !strip(core[|core| - 1])
    ensures TrimBy(pre + core + post, strip) == core
  {
    var s := pre + core + post;
    var t := TrimBy(s, strip);
    var i := SkipForward(s, strip, 0);
    assert s[|pre|] == core[0];
    assert i == |pre|;
    var last := |pre| + |core| - 1;
    assert s[last] == core[|core| - 1];
    assert i + |t| > last;
    assert t[|t| - 1] == s[i + |t| - 1];
    assert i + |t| - 1 <= last;
    assert s[|pre|..|pre| + |core|] == core;
  }

  /** Trimming twice is trimming once. */
  lemma TrimIdempotent(s: string)
    ensures Trim(Trim(s)) == Trim(s)
  {
    TrimByOfClean(Trim(s), IsWhiteSpace);
  }

  // ---------------------------------------------------------------------
  // Path components

  /** `Path.GetFileName`: the longest suffix of `path` free of directory
      separators.  It is a suffix of the input, contains no separator, and
      is preceded in the input by a separator unless it is the whole input. */
  function GetFileName(path: string): (name: string)
    ensures |name| <= |path| && name == path[|path| - |name|..]
    ensures forall k :: 0 <= k < |name| ==> !IsSeparator(name[k])
    ensures |name| < |path| ==> IsSeparator(path[|path| - |name| - 1])
  {
    if |path| == 0 || IsSeparator(path[|path| - 1]) then
      ""
    else
      GetFileName(path[..|path| - 1]) + [path[|path| - 1]]
  }

  /** `Path.GetDirectoryName` for paths the servers build: everything before
      the last separator ("" when there is none). */
  function DirectoryName(path: string): (dir: string)
    ensures |dir| < |path| || (dir == [] && path == [])
  {
    var name := GetFileName(path);
    if |name| < |path| then path[..|path| - |name| - 1] else ""
  }

  /** A path with a separator is its directory, that separator, and its
      file name; a path without one has the empty directory. */
  lemma DirectoryNameShape(path: string)
    ensures |GetFileName(path)| == |path| ==> DirectoryName(path) == []
    ensures |GetFileName(path)| < |path| ==>
              var dir := DirectoryName(path);
              path == dir + [path[|dir|]] + GetFileName(path) && IsSeparator(path[|dir|])
  {
    var dir := DirectoryName(path);
    var name := GetFileName(path);
    if |name| < |path| {
      assert path == path[..|dir|] + [path[|dir|]] + path[|dir| + 1..];
    }
  }

  /** The file name of `dir + sep + name`, for a separator-free `name`, is
      `name`. */
  lemma {:induction false} FileNameAfterSeparator(dir: string, sep: char, name: string)
    requires IsSeparator(sep)
    requires forall k :: 0 <= k < |name| ==> !IsSeparator(name[k])
    ensures GetFileName(dir + [sep] + name) == name
  {
    var path := dir + [sep] + name;
    if |name| == 0 {
      assert path[|path| - 1] == sep;
    } else {
      var shorter := name[..|name| - 1];
      assert path[..|path| - 1] == dir + [sep] + shorter;
      FileNameAfterSeparator(dir, sep, shorter);
      assert name == shorter + [name[|name| - 1]];
    }
  }

  /** A separator-free name appended to a directory after one separator is
      exactly what `GetFileName` gives back, and the directory is what
      `DirectoryName` gives back. */
  lemma {:induction false} SplitPathOf(dir: string, sep: char, name: string)
    requires IsSeparator(sep)
    requires forall k :: 0 <= k < |name| ==> !IsSeparator(name[k])
    ensures GetFileName(dir + [sep] + name) == name
    ensures DirectoryName(dir + [sep] + name) == dir
  {
    var path := dir + [sep] + name;
    FileNameAfterSeparator(dir, sep, name);
    assert |path| - |name| - 1 == |dir|;
    assert path[..|dir|] == dir;
  }

  /** A separator-free string is its own file name. */
  lemma {:induction false} GetFileNameOfPlain(s: string)
    requires forall k :: 0 <= k < |s| ==> !IsSeparator(s[k])
    ensures GetFileName(s) == s
  {
    if |s| > 0 {
      GetFileNameOfPlain(s[..|s| - 1]);
      assert s == s[..|s| - 1] + [s[|s| - 1]];
    }
  }

  // ---------------------------------------------------------------------
  // Splitting on a delimiter

  /** The inverse of `Split`: the fields glued back together with `sep`. */
  function Join(fields: seq<string>, sep: char): string
    requires |fields| >= 1
  {
    if |fields| == 1 then fields[0] else fields[0] + [sep] + Join(fields[1..], sep)
  }

  /** `String.Split(sep)`: cuts at EVERY occurrence of `sep`.  There is always
      at least one field, no field contains `sep`, gluing the fields back
      reproduces the input, and there is exactly one field when `sep` does
      not occur. */
  function Split(s: string, sep: char): (fields: seq<string>)
    ensures |fields| >= 1
    ensures forall k :: 0 <= k < |fields| ==> sep !in fields[k]
    ensures Join(fields, sep) == s
    ensures |fields| == 1 <==> sep !in s
  {
    if |s| == 0 then
      [""]
    else
      var rest := Split(s[1..], sep);
      if s[0] == sep then
        assert ([""] + rest)[1..] == rest;
        assert s == [sep] + s[1..];
        [""] + rest
      else
        var fields := [[s[0]] + rest[0]] + rest[1..];
        assert fields[1..] == rest[1..];
        assert s == [s[0]] + s[1..];
        assert |rest| > 1 ==> Join(rest, sep) == rest[0] + [sep] + Join(rest[1..], sep);
        fields
  }

  /** Splitting `word + sep + rest`, with `word` free of `sep`, yields `word`
      followed by the fields of `rest`. */
  lemma {:induction false} SplitAfterWord(word: string, sep: char, rest: string)
    requires sep !in word
    ensures Split(word + [sep] + rest, sep) == [word] + Split(rest, sep)
  {
    var s := word + [sep] + rest;
    if |word| == 0 {
      assert s[1..] == rest;
    } else {
      assert s[1..] == word[1..] + [sep] + rest;
      SplitAfterWord(word[1..], sep, rest);
      assert word == [word[0]] + word[1..];
    }
  }

  /** A string free of `sep` is a single field. */
  lemma SplitOfWord(word: string, sep: char)
    requires sep !in word
    ensures Split(word, sep) == [word]
  {
  }

  /** Round trip: splitting the join of `sep`-free fields gives the fields back. */
  lemma {:induction false} SplitJoin(fields: seq<string>, sep: char)
    requires |fields| >= 1
    requires forall k :: 0 <= k < |fields| ==> sep !in fields[k]
    ensures Split(Join(fields, sep), sep) == fields
  {
    if |fields| == 1 {
      SplitOfWord(fields[0], sep);
    } else {
      SplitJoin(fields[1..], sep);
      SplitAfterWord(fields[0], sep, Join(fields[1..], sep));
      assert fields == [fields[0]] + fields[1..];
    }
  }
}

=== FILE: wrappers.dfy ===
/** The optional-value datatype used throughout the model.  `None` stands
    for a C# `null` reference wherever the source relies on one. */
module Wrappers {

  datatype Option<T> = None | Some(value: T)
}
